=== FILE: README.md ===
# Logic games hub — a Dafny model

The hub is a browser application with three logic games. It has a math quiz,
a colour-matching memory game and a 3×3 sliding number puzzle. Accounts and
leaderboards are kept in the browser's key-value store. This project models
the sequential logic under the page code, as immutable values and pure step
functions:

- **The score and account store** (`DB` and `SecurityUtils` in script.js).
  It holds the user list, the three per-game leaderboards and the session.
  The model covers registration, login and logout, the per-game "best"
  statistics, score insertion with its stable sort and 50-row cap, the rank
  lookup, the password encoding (base64 of password plus salt), the
  password-strength counter and the e-mail pattern.
- **The game engines** (games-module.js). The math quiz covers question and
  option generation, scoring and the 60-second countdown. The colour game
  covers the deck and the two-cell selection state machine. The puzzle
  covers the random-walk shuffle, the adjacency-checked move and the solved
  test. It also includes the Fisher–Yates `shuffleArray`.
- **The example-score seeding** (`addExampleScoresToRanking` in
  test-user-module.js). It merges fixed example rows into short boards
  without duplicates, then re-sorts every board.

Every `Math.random` outcome is an argument:

- Fisher–Yates indices are `draws`.
- Option candidates are `Candidate` values, each an offset and a sign.
- A puzzle shuffle round takes a `Twelfth`, the twelfth of [0, 1) the
  random number falls in. Twelve is a multiple of every neighbour count,
  so `Math.floor(Math.random() * n)` is `d * n / 12`.

Timestamps are opaque strings passed in. Each timer callback is an explicit
event: a second of an interval, or the delayed timeout after an answer or a
second turned card.

Modules: `Common` (shared vocabulary), `Shuffle`, `Base64`, `Security`,
`Ranking`, `Accounts`, `Seeding`, `MathQuiz`, `ColorMatch`, `Puzzle`.

In two places the code does not do what the surrounding code evidently
expects of it. The model states the code as written and beside it a
corrected version:

- `generateMathOptions` (games-module.js:97-111) loops until it holds four
  options and then shuffles them, so it is written to return four options.
  For answers below −2 the loop cannot finish.
- `endPuzzleGame` (games-module.js:412-436) announces that the puzzle is
  solved and calls the page's score handler (script.js:568-590), which,
  for a logged-in player outside guest mode, adds a ranking row and
  updates the player's stats on every call. Both
  effects presume one end per game. The click handler calls it on every
  click that leaves the board solved, including after a solved board was
  slid apart and solved again.

Both are listed under "Findings".

## Model

| member | source | states |
|---|---|---|
| Shuffle.ShuffleFrom | script.js:706-709 | Each round swaps position i with a drawn j in 0..i. The rounds from i down to 1 return a permutation: same length, same multiset. |
| Shuffle.ShuffleArray | script.js:704-711 | With every draw in range, the shuffled copy has the input's length and multiset. games-module.js:439-446 is the same body. |
| Base64.SextetChar | script.js:207 | Each 6-bit value maps to an alphabet character of Table 1 of RFC 4648 that decodes back to that value. |
| Base64.Encode | script.js:207 | `btoa` output is 4·⌈n/3⌉ characters long and uses only the alphabet and '='. |
| Base64.DecodeEncode | script.js:207 | Decoding the encoding of any octet string gives back exactly that octet string. |
| Base64.EncodeInjective | script.js:207 | Two octet strings with the same encoding are equal. |
| Security.Latin1Bytes | script.js:207 | `btoa` reads one octet per character, and that octet is the character's code. |
| Security.SaltedLatin1 | script.js:206-207 | The ASCII salt never makes `btoa` throw: password+salt is encodable exactly when the password is. |
| Security.EncodePassword | script.js:204-208 | Encoding fails (btoa throws) exactly when some character is above 255. Otherwise the result decodes to the octets of password + "logicagames_salt_2024". |
| Security.EncodePasswordInjective | script.js:204-208 | Two passwords with the same stored encoding are the same password, so comparing encodings at login compares passwords. |
| Security.CheckPasswordStrength | script.js:211-228 | The length criterion counts UTF-16 code units, as JavaScript's `length` does. The score lies in 0..4, and strong ⇔ score ≥ 3. The message depends only on strong. The score is 0 exactly when no criterion holds and 4 exactly when all four hold. |
| Security.Utf16Length | script.js:218 | A string's JavaScript `length` lies between its number of characters and twice that: characters beyond U+FFFF take two code units. |
| Security.Utf16LengthAppend | script.js:218 | The length of a concatenation is the sum of the lengths. |
| Security.StrongIffThreeCriteria | script.js:217-225 | Strong holds exactly when at least three of the four criteria (length ≥ 6, upper, lower, digit) hold. |
| Security.StrongWithoutMinLength | script.js:218-225 | "Ab1" is strong although it is shorter than six code units: strong does not imply the minimum length. |
| Security.SurrogatePairsCountTwice | script.js:211-228 | "Ab😀😀" has four characters but length 6, so it meets the length criterion, scores 3 and is strong. |
| Security.StrengthGrowsWithExtension | script.js:213-221 | Appending characters to a password never lowers its score. |
| Security.ValidateEmailCharacterization | script.js:231-234 | The pattern `^[^\s@]+@[^\s@]+\.[^\s@]+$` accepts a string exactly when it has no white space, a single '@' that is not the first character, and after it a '.' with text on both sides. |
| Security.PatternHasSingleAt | script.js:232 | Every accepted address has no white space, exactly one '@', and a dotted domain after it. |
| Security.SingleAtMatchesPattern | script.js:232 | Every string with no white space, a single non-initial '@' and a dotted domain matches the pattern. |
| Ranking.Scores.WithBoard | script.js:72-84 | Replacing one game's board leaves the other two boards as they were. |
| Ranking.Insert | script.js:75-79 | Insertion adds exactly one entry: length + 1, multiset + {e}. |
| Ranking.StableSort | script.js:75-79 | The insertion sort keeps the board's length and multiset. |
| Ranking.InsertSorted | script.js:75-79 | Inserting into an ordered board keeps it ordered. Within each key, e comes after the entries that were already there. |
| Ranking.StableSortIsStable | script.js:75-79 | The sort orders by the game's comparator (higher score first for math, lower first otherwise) and keeps each key's entries in their original order. This is what a stable `Array.prototype.sort` produces. |
| Ranking.StableSortUnique | script.js:75-79 | Two boards that are both ordered and agree on the order within every key are equal, so the stable sort is unique. |
| Ranking.StableSortIsTheStableSort | script.js:75-79 | Any stable sort of a board equals the modelled insertion sort. |
| Ranking.SortedIsFixedPoint | script.js:75-79 | Re-sorting an ordered board changes nothing. |
| Ranking.Top | script.js:82 | `slice(0, 50)` keeps the first min(50, n) rows. |
| Ranking.AddScore | script.js:70-85 | After `addScore` the game's board is ordered and holds min(50, n+1) rows, all taken from the old board plus the new row. The other boards are unchanged. |
| Ranking.AddScoreIsTopOfStableSort | script.js:70-85 | The new board is the first 50 rows of any stable sort of the old board with the entry pushed at its end. |
| Ranking.AddScoreInsertsIntoSortedBoard | script.js:70-85 | On an ordered board, `addScore` places the entry after every row that ranks at least as well, then cuts to 50. |
| Ranking.AddScoreDropsOnlyTheWorst | script.js:82 | A row dropped by the cut ranks no better than any row kept. |
| Ranking.AddScorePreservesWellFormed | script.js:70-85 | `addScore` keeps every board ordered and within 50 rows. |
| Ranking.GetRanking | script.js:188-191 | On a well-formed store, the returned board is ordered and holds at most 50 rows. |
| Ranking.GetUserRank | script.js:194-198 | The result is 1 + the index of the user's first row, and lies in 1..n. It is null exactly when no row has that user id. |
| Accounts.RegisterUser | script.js:88-126 | The failures come in order: invalid e-mail, then weak password (carrying the strength check's message), then e-mail taken. Any failure leaves the store unchanged. Success appends exactly one account with stats {0, null, null} and the encoded password. It returns only name and e-mail and leaves scores and session alone. |
| Accounts.RegisterPreservesValid | script.js:103-118 | Registration keeps e-mails pairwise distinct and the session consistent with its account. |
| Accounts.SecondRegistrationFails | script.js:103-105 | Registering an e-mail a second time always fails. |
| Accounts.LoginUser | script.js:129-142 | Login succeeds exactly when some account has this e-mail and the encoding of this password. The session becomes that account without its password. A failure leaves the store unchanged. |
| Accounts.LoginPreservesValid | script.js:129-142 | Login keeps the store valid. |
| Accounts.LoginSelectsTheAccount | script.js:132-138 | With unique e-mails, a successful login opens a session for exactly the account with that e-mail. |
| Accounts.LoginNeedsTheRegisteredPassword | script.js:129-142 | After a registration, login with that e-mail succeeds exactly with the registered password. |
| Accounts.RegisterThenLogin | script.js:88-142 | Registering and then logging in with the same credentials opens a session with the new account's name, e-mail, creation date and initial stats. |
| Accounts.LogoutUser | script.js:145-147 | Logout clears the session and leaves users and scores as they were. |
| Accounts.LoginThenLogout | script.js:129-147 | Logging in then out from a logged-out store restores the store. |
| Accounts.ImproveStats | script.js:162-174 | Only the field of the given game changes. Math keeps the larger score. |
| Accounts.ImproveStatsIsBest | script.js:162-174 | Math becomes max(old, new). Colour time and puzzle moves become min(old, new), except that a null or zero old value is replaced outright. |
| Accounts.ZeroTimeIsOverwritten | script.js:167 | A stored time of 0 counts as "none" and is replaced even by a worse time. |
| Accounts.UpdateUserStats | script.js:155-185 | An unknown e-mail changes nothing. Otherwise the matching account's stats are improved and every other account is untouched. The session's stats are overwritten only when the session's e-mail is the user id. |
| Accounts.UpdateUserStatsPreservesValid | script.js:155-185 | The stats update keeps e-mails unique and the session equal to its account without the password. |
| Seeding.Examples | test-user-module.js:17-37 | Math has five example rows and the others four. Each board's first three examples have pairwise different scores. |
| Seeding.AddMissing | test-user-module.js:87-94 | The `forEach`/`some`/`push` loop keeps the old rows as a prefix and appends at most one row per example. |
| Seeding.AddMissingMeaning | test-user-module.js:87-94 | After the loop every example's (user, score) pair is listed. Every appended row is an example whose pair was not listed before it. |
| Seeding.AddMissingWhenListed | test-user-module.js:89-93 | A board that already lists every example gets nothing appended. |
| Seeding.Grown | test-user-module.js:86 | Only a board with fewer than three rows grows, and the old rows stay in front. |
| Seeding.MergeBoard | test-user-module.js:86-120 | The seeded board is a stable sort of the grown board: ordered by the game's comparator, every old row kept, and every new row one of the examples, with no more new rows than examples. A board with three or more rows is only re-sorted. |
| Seeding.SeedRanking | test-user-module.js:71-129 | Each of the three boards is merged with its own game's examples, so every seeded board is ordered and keeps all its old rows (what it adds is stated by SeedRankingIsStableSort and SeededBoardsAreFull). |
| Seeding.SeedRankingIsStableSort | test-user-module.js:86-120 | Each seeded board is a stable sort, by the game's direction, of the old board plus the appended examples. Nothing is removed, appended rows are not duplicates, and a short board ends up listing every example. |
| Seeding.SeedKeepsFullSortedBoard | test-user-module.js:86-120 | An ordered board with at least three rows comes out unchanged. |
| Seeding.SeededBoardsAreFull | test-user-module.js:86-115 | After seeding, every board has at least three rows, and a board that had fewer than three has at least four, one per example score. |
| Seeding.SeedRankingIdempotent | test-user-module.js:86-120 | Seeding a second time changes nothing. |
| Seeding.MergeBoardWithinCap | test-user-module.js:86-120 | A merged board is ordered and stays within 50 rows: a full board keeps its length and a short one grows to at most 2 + 5 rows. |
| Seeding.SeedRankingPreservesWellFormed | test-user-module.js:71-129 | Seeding keeps the boards ordered and within 50 rows. |
| MathQuiz.CollectOptions | games-module.js:98-108 | When the loop finishes, it holds four pairwise different values: the answer first and then positive values within 5 of it. The starting options form its prefix. |
| MathQuiz.GenerateMathOptions | games-module.js:97-111 | The options are four distinct values. The answer occurs exactly once, and every other value v is positive with 1 ≤ \|v − c\| ≤ 5. Options are produced exactly when the loop finishes. |
| MathQuiz.CollectStalls | games-module.js:100-108 | For an answer below −2, no sequence of random outcomes ever gives the loop its fourth option. |
| MathQuiz.CollectFinishes | games-module.js:100-108 | For an answer of −2 or more, the outcomes +3, +4, +5 finish the loop. |
| MathQuiz.OptionsFinishIff | games-module.js:100-108 | Some random outcomes let the option loop finish exactly when the answer is at least −2. |
| MathQuiz.LoadMathQuestionAsWritten | games-module.js:50-78 | A generated question's answer is num1 op num2, and its options are valid for it. |
| MathQuiz.SubtractionQuestionHangs | games-module.js:51-77 | The question 1 − 10 never gets its options, whatever `Math.random` returns. |
| MathQuiz.Posed | games-module.js:51-72 | Corrected loader (see "Findings"), not the code as written: the posed operands are the drawn ones, swapped only for a subtraction with a smaller first operand, so the answer is never negative. |
| MathQuiz.PosedAnswer | games-module.js:59-72 | Corrected loader (see "Findings"), not the code as written: the posed answer is non-negative. For subtraction it is \|num1 − num2\|, and otherwise num1 op num2. |
| MathQuiz.LoadMathQuestion | games-module.js:50-78 | The corrected loader shows a question whose answer is its operands combined by the operator, with valid options. It succeeds exactly when the option loop does. |
| MathQuiz.LoadMathQuestionCanFinish | games-module.js:97-111 | Every question the corrected loader can pose has a finishing run of the option loop. |
| MathQuiz.StartMath | games-module.js:25-48 | A new game has score 0 and 60 seconds, with options enabled. |
| MathQuiz.Tick | games-module.js:37-45 | A running game's clock goes down by one second per tick and the question stays. The game ends, and the options are disabled, exactly on the tick that reaches 0. A stopped interval changes nothing. The score never changes. |
| MathQuiz.Answer | games-module.js:113-153 | A click adds exactly 10 when it is the right answer and the options are still enabled, and nothing otherwise. An enabled click disables the options. A click on disabled options changes nothing. |
| MathQuiz.NextQuestion | games-module.js:147-152 | After an answer, the next question appears only while time is left, with its options enabled again. Otherwise nothing changes. |
| MathQuiz.AnswerScoresOnce | games-module.js:143-145 | Options are disabled after the first click, so a second click on the same question changes nothing and a question scores at most once. |
| MathQuiz.NextQuestionScoresAgain | games-module.js:80-152 | After an answered question, while time is left, the next question's right answer scores 10 again. |
| MathQuiz.OneRightOption | games-module.js:118-131 | Valid options show the right answer at exactly one position, so exactly one option scores. |
| MathQuiz.RunEndsOnce | games-module.js:37-45 | After n seconds the timer shows max(0, t − n). The game ends exactly once, on the tick that reaches 0, and the score stays a non-negative multiple of 10. |
| MathQuiz.MathRoundEndsOnce | games-module.js:25-48 | A full round ends exactly once, after the 60th second. |
| MathQuiz.RunScore | games-module.js:126-131 | The score never decreases and grows by at most 10 per click. It no longer changes once the game is over. |
| ColorMatch.Deal | games-module.js:211-217 | The deck has 16 cells, and each of the 8 colours occurs exactly twice. |
| ColorMatch.DealIsPaired | games-module.js:211-217 | Every cell's colour occurs on exactly two cells. |
| ColorMatch.StartColor | games-module.js:189-234 | A new game deals the shuffled deck, with nothing selected or matched, no pairs, no moves, time 0 and not over. It satisfies the invariant. |
| ColorMatch.PairsBounded | games-module.js:270-282 | At most eight pairs are found, and when all eight are found every cell is matched. |
| ColorMatch.Without | games-module.js:244 | Filtering out an index removes exactly it and keeps the rest. |
| ColorMatch.SelectColorCell | games-module.js:236-259 | A click is ignored when two cells are turned or the cell is matched. A new cell is appended to the selection, keeping the cells already turned. A turned cell is turned back: exactly it leaves the selection and the others stay. Moves grow exactly when a second cell is turned. The invariant, including selection size ≤ 2, is kept. |
| ColorMatch.ResolveSelection | games-module.js:261-294 | A match marks both cells matched, counts a pair and clears the selection. It reports the end exactly when the pair count reaches 8. A mismatch only clears the selection. The invariant is kept, so matched cells come in whole colour pairs. |
| ColorMatch.Tick | games-module.js:206-209 | The clock advances one second until the game is over. |
| ColorMatch.RunEndsOnce | games-module.js:261-294 | Over any sequence of clicks, timeouts and seconds, the game ends at most once. It ends exactly when an unfinished game finishes, and a finished game no longer changes. |
| ColorMatch.FinishedGame | games-module.js:280-282 | A finished game has eight pairs, every cell matched, and at least eight moves. |
| Puzzle.BlankIndex | games-module.js:346 | `indexOf(0)` returns the first cell holding the blank. |
| Puzzle.BlankIsUnique | games-module.js:346 | On a board the blank is the only 0, so its index is unique. |
| Puzzle.PossibleMovesAreAdjacent | games-module.js:349-352 | The shuffle's neighbour list and the click handler's adjacency test describe the same cells. |
| Puzzle.RowIsFloorThird | games-module.js:385 | On the board, the row test equals `Math.floor(c / 3)`. |
| Puzzle.AdjacentSymmetric | games-module.js:384-386 | Adjacency is symmetric. |
| Puzzle.Pick | games-module.js:354 | The drawn move is one of the neighbours. |
| Puzzle.EveryMoveCanBePicked | games-module.js:354 | Every neighbour can be drawn. |
| Puzzle.Slide | games-module.js:356-357 | The tile moves into the blank and the blank takes its cell. No other cell changes. |
| Puzzle.SlideKeepsTiles | games-module.js:356-357 | A slide keeps the multiset of tiles. |
| Puzzle.ShuffleStep | games-module.js:345-358 | Each shuffle round swaps the blank with an adjacent in-grid cell. |
| Puzzle.ShufflePuzzle | games-module.js:344-359 | A hundred rounds keep a single blank and the tiles of the starting board. |
| Puzzle.ShuffleKeepsTiles | games-module.js:344-359 | Any number of shuffle rounds keeps the multiset of tiles. |
| Puzzle.Click | games-module.js:381-401 | A click on a cell adjacent to the blank slides that tile. Any other click changes nothing. |
| Puzzle.ClickBack | games-module.js:381-391 | After a slide the blank is where the tile was, and clicking the blank's old cell restores the board. |
| Puzzle.ClickUndoesStep | games-module.js:344-359 | Clicking where the blank was undoes one shuffle round. |
| Puzzle.ShuffleIsUndoable | games-module.js:344-359 | Clicking the blank's earlier cells, latest first, leads back from any shuffled board to its starting board. |
| Puzzle.ShuffledPuzzleIsSolvable | games-module.js:329-359 | A hundred shuffle rounds from the goal give a board with the goal's tiles that can always be solved. |
| Puzzle.IsPuzzleSolved | games-module.js:403-410 | The solved test holds exactly when the board is [1..8, 0]. |
| Puzzle.ShuffledGoal | games-module.js:329-359 | The board a new puzzle deals holds the goal's tiles, and some sequence of clicks leads from it back to the goal. |
| Puzzle.StartPuzzle | games-module.js:329-342 | A new puzzle deals the shuffled goal with no moves, so the board the player receives holds the goal's tiles and can always be solved. |
| Puzzle.MovePuzzleCellAsWritten | games-module.js:381-401 | A non-adjacent click changes neither board nor moves. An adjacent click slides the tile and adds one move, and it reports the end exactly when the board is then solved. |
| Puzzle.NearlySolvedIsOneSlideAway | games-module.js:381-410 | From [1..7, 0, 8], clicking cell 8 is a legal move that solves the board. |
| Puzzle.Unsolve | games-module.js:381-410 | Sliding the last tile back out of a just-solved board restores the earlier, unsolved board. |
| Puzzle.SolvingMove | games-module.js:381-401 | The solving click slides, counts a move and reports the end. |
| Puzzle.UnsolvingMove | games-module.js:381-401 | Sliding the tile back out counts a move and reports no end. |
| Puzzle.SolvedTwiceFrom | games-module.js:397-399 | On any board one slide from solved, solving it, sliding back and solving again reports the end twice. |
| Puzzle.SolvedTwiceAsWritten | games-module.js:397-399 | From [1..7, 0, 8], the clicks 8, 7, 8 report the end twice, so the game records its score twice. |
| Puzzle.MovePuzzleCell | games-module.js:381-401 | The corrected move ignores clicks once the game is over, and otherwise behaves as the code does. |
| Puzzle.RunEndsOnce | games-module.js:397-399 | With the end recorded, the end is reported at most once, exactly when an unfinished game gets solved, and the final board is then the goal. |

## Left out

- All DOM work: rendering, feedback texts on the page, styling, navigation, theme, profile and ranking tables, notifications and debug buttons.
- The key-value store and JSON plumbing, including `DB.init`'s recovery. The store is an in-memory value.
- Timer scheduling and cancellation. Each interval second and each delayed timeout is an explicit event, and wall-clock time is not modelled.
- `Math.random` and `new Date()`. Random outcomes and timestamps are parameters, so the uniformity of the shuffles is not modelled.
- The score-reporting bridge from the engines to the store (`endMathGame`, `endColorGame`, `endPuzzleGame` and their handlers in script.js). The model records only that the end routine ran (the `ended` flags and `ends` counters).
- auth-module.js: the form handlers, their own pre-checks before calling registration, and the hard-coded test-credential shortcut. It is not part of this model.
- The test-user login path and its UI helpers in test-user-module.js.
- ColorMatch.ColorGame: `colorPairs` and `matchedPairs` are always incremented together, so one counter `pairs` stands for both.
- ColorMatch.Step: a click on an index outside the deck (impossible in the page) is a no-op.
- Puzzle.IsAdjacent: `Math.floor(c / 3)` is written as comparisons; `Puzzle.RowIsFloorThird` shows the two agree on every cell of the board.
- Puzzle.Click: the page only offers clicks on tiles; a click on the blank's own cell is not adjacent and changes nothing, as in the code.
- Strings are sequences of Unicode scalar values, so a JavaScript string holding a lone surrogate (an unpaired UTF-16 half) cannot be represented; every modelled string is well-formed UTF-16.
- The puzzle's move count as the page's score handler sees it: script.js:353 declares its own top-level `puzzleMoves`, which is never reassigned and is a different binding from the engine's `window.puzzleMoves`, so the handler reports and records 0 moves. The model counts moves in the engine and records only that the end routine ran.
- Security.EncodePassword: `btoa` throwing on a character above 255 is a failure value; the registration and login that would throw fail instead.
- Accounts.UpdateUserStats: its ensures names the improved account by existence; with unique e-mails (the store invariant) it is the first and only match, as `findIndex` picks.

## Findings

| source | as written | input that shows it | evidently intended | confidence | as-written member | corrected member |
|---|---|---|---|---|---|---|
| games-module.js:64-66, 100-108 | `correctAnswer = num1 - num2` can be −9, and the option loop only accepts positive values within 5 of it, so below −2 it never gathers four options and the page freezes | num1 = 1, num2 = 10, operator '-': answer −9, and no outcome of `Math.random` ends the loop | every question gets four options, e.g. by posing subtraction as larger − smaller | high; proved over all random outcomes; not executed | MathQuiz.SubtractionQuestionHangs | MathQuiz.LoadMathQuestionCanFinish |
| games-module.js:397-399 | `endPuzzleGame` runs on every click that leaves the board solved; nothing stops play after the first solve | from [1,2,3,4,5,6,7,0,8] the clicks on cells 8, 7, 8 solve, unsolve and re-solve, and the end routine (and score recording) runs twice | the game ends once; later clicks are ignored | medium; the second end needs the player to keep playing; not executed | Puzzle.SolvedTwiceAsWritten | Puzzle.RunEndsOnce |

=== FILE: accounts.dfy ===
/** The account half of the `DB` object (script.js): registration, login,
    logout and the per-game "best" statistics, over an in-memory store that
    stands for the `users`, `scores` and `currentUser` keys. */
module Accounts {
  import opened Common
  import opened Ranking
  import Security

  /** `stats`: a higher math score is better; a lower colour time or puzzle
      move count is better, and `null` (None) means "no finished game". */
  datatype Stats = Stats(mathBestScore: int, colorBestTime: Option<int>, puzzleBestMoves: Option<int>)

  /** The stats a new account starts with. */
  const InitialStats: Stats := Stats(0, None, None)

  /** A stored account; `password` holds the encoded password. */
  datatype User = User(name: string, email: string, password: string, createdAt: string, stats: Stats)

  /** The session copy of an account: the same record without its password. */
  datatype SessionUser = SessionUser(name: string, email: string, createdAt: string, stats: Stats)

  /** What a successful registration hands back. */
  datatype PublicUser = PublicUser(name: string, email: string)

  /** The persisted state: the `users` list, the `scores` boards and the
      `currentUser` session entry (`null` is None). */
  datatype Store = Store(users: seq<User>, scores: Scores, session: Option<SessionUser>)

  /** The store after `DB.init` on an empty key-value store. */
  const EmptyStore: Store := Store([], EmptyScores, None)

  /** The registration failures, in the order the checks run. `btoa`
      throwing on a character above 255 is `UnencodablePassword`. */
  datatype RegisterError = InvalidEmail | WeakPassword(message: string) | EmailTaken | UnencodablePassword

  /** Login failures: no matching account, or `btoa` throwing. */
  datatype LoginError = InvalidCredentials | UnencodablePassword

  /** An operation's answer together with the store it leaves behind. */
  datatype Step<+T> = Step(answer: T, store: Store)

  function Strip(u: User): SessionUser
  {
    SessionUser(u.name, u.email, u.createdAt, u.stats)
  }

  predicate HasEmail(users: seq<User>, email: string)
  {
    exists i :: 0 <= i < |users| && users[i].email == email
  }

  /** No two accounts share an e-mail. */
  predicate UniqueEmails(users: seq<User>)
  {
    forall i, j :: 0 <= i < |users| && 0 <= j < |users| && users[i].email == users[j].email ==> i == j
  }

  /** The session, when present, is the password-free copy of the stored
      account with its e-mail. */
  predicate SessionMatches(st: Store)
  {
    st.session.Some? ==>
      exists i :: 0 <= i < |st.users| && st.users[i].email == st.session.value.email
                  && Strip(st.users[i]) == st.session.value
  }

  /** The store invariant the account operations keep. */
  predicate Valid(st: Store)
  {
    UniqueEmails(st.users) && SessionMatches(st) && WellFormed(st.scores)
  }

  // ---------------------------------------------------------------------
  // registerUser

  /** `DB.registerUser`: checks the e-mail format, then the password
      strength, then that the e-mail is free; then stores the account with
      empty stats and the encoded password. */
  function RegisterUser(st: Store, name: string, email: string, password: string, now: string)
    : (r: Step<Result<PublicUser, RegisterError>>)
    ensures r.answer.Failure? ==> r.store == st
    ensures r.answer == Failure(InvalidEmail) <==> !Security.ValidateEmail(email)
    ensures r.answer.Failure? && r.answer.error.WeakPassword? <==>
              Security.ValidateEmail(email) && !Security.CheckPasswordStrength(password).strong
    ensures r.answer.Failure? && r.answer.error.WeakPassword? ==>
              r.answer.error.message == Security.CheckPasswordStrength(password).message
    ensures r.answer == Failure(EmailTaken) <==>
              && Security.ValidateEmail(email) && Security.CheckPasswordStrength(password).strong
              && HasEmail(st.users, email)
    ensures r.answer.Success? <==>
              && Security.ValidateEmail(email) && Security.CheckPasswordStrength(password).strong
              && !HasEmail(st.users, email) && Security.Latin1(password)
    ensures r.answer.Success? ==>
              && r.answer.value == PublicUser(name, email)
              && |r.store.users| == |st.users| + 1
              && r.store.users[..|st.users|] == st.users
              && r.store.users[|st.users|]
                 == User(name, email, Security.EncodePassword(password).value, now, InitialStats)
              && r.store.scores == st.scores && r.store.session == st.session
  {
    if !Security.ValidateEmail(email) then Step(Failure(InvalidEmail), st)
    else
      var check := Security.CheckPasswordStrength(password);
      if !check.strong then Step(Failure(WeakPassword(check.message)), st)
      else if HasEmail(st.users, email) then Step(Failure(EmailTaken), st)
      else match Security.EncodePassword(password)
        case None => Step(Failure(RegisterError.UnencodablePassword), st)
        case Some(encoded) =>
          var user := User(name, email, encoded, now, InitialStats);
          Step(Success(PublicUser(name, email)), st.(users := st.users + [user]))
  }

  /** Registration keeps e-mails unique and the store valid. */
  lemma RegisterPreservesValid(st: Store, name: string, email: string, password: string, now: string)
    requires Valid(st)
    ensures Valid(RegisterUser(st, name, email, password, now).store)
  {
    var r := RegisterUser(st, name, email, password, now);
    if r.answer.Success? {
      var users := r.store.users;
      assert forall i :: 0 <= i < |st.users| ==> users[i] == st.users[i];
      if st.session.Some? {
        var i :| 0 <= i < |st.users| && st.users[i].email == st.session.value.email
                 && Strip(st.users[i]) == st.session.value;
        assert users[i] == st.users[i];
      }
    }
  }

  /** A second registration with an e-mail already in use always fails. */
  lemma SecondRegistrationFails(st: Store, name: string, email: string, password: string, now: string,
                                name2: string, password2: string, now2: string)
    requires RegisterUser(st, name, email, password, now).answer.Success?
    ensures var st2 := RegisterUser(st, name, email, password, now).store;
            RegisterUser(st2, name2, email, password2, now2).answer.Failure?
  {
    var st2 := RegisterUser(st, name, email, password, now).store;
    assert st2.users[|st.users|].email == email;
  }

  // ---------------------------------------------------------------------
  // loginUser / logoutUser

  /** `DB.loginUser`: the first account with this e-mail and this encoded
      password becomes the session, without its password. */
  function LoginUser(st: Store, email: string, password: string): (r: Step<Result<SessionUser, LoginError>>)
    ensures r.answer.Success? <==>
              && Security.EncodePassword(password).Some?
              && exists i :: 0 <= i < |st.users| && st.users[i].email == email
                             && st.users[i].password == Security.EncodePassword(password).value
    ensures r.answer.Success? ==>
              exists i :: && 0 <= i < |st.users| && st.users[i].email == email
                          && st.users[i].password == Security.EncodePassword(password).value
                          && r.answer.value == Strip(st.users[i])
    ensures r.answer.Success? ==>
              r.store == st.(session := Some(r.answer.value))
    ensures r.answer.Failure? ==> r.store == st
  {
    match Security.EncodePassword(password)
    case None => Step(Failure(LoginError.UnencodablePassword), st)
    case Some(encoded) =>
      match FirstIndex(st.users, (u: User) => u.email == email && u.password == encoded)
      case None => Step(Failure(InvalidCredentials), st)
      case Some(i) =>
        var who := Strip(st.users[i]);
        Step(Success(who), st.(session := Some(who)))
  }

  lemma LoginPreservesValid(st: Store, email: string, password: string)
    requires Valid(st)
    ensures Valid(LoginUser(st, email, password).store)
  {
  }

  /** With unique e-mails, a successful login puts exactly that account's
      password-free copy in the session. */
  lemma LoginSelectsTheAccount(st: Store, email: string, password: string, i: nat)
    requires UniqueEmails(st.users)
    requires i < |st.users| && st.users[i].email == email
    requires LoginUser(st, email, password).answer.Success?
    ensures LoginUser(st, email, password).store.session == Some(Strip(st.users[i]))
  {
  }

  /** Login succeeds for an account only with the password it was
      registered with. */
  lemma LoginNeedsTheRegisteredPassword(st: Store, name: string, email: string, password: string,
                                        now: string, other: string)
    requires UniqueEmails(st.users)
    requires RegisterUser(st, name, email, password, now).answer.Success?
    ensures var st2 := RegisterUser(st, name, email, password, now).store;
            LoginUser(st2, email, other).answer.Success? <==> other == password
  {
    var st2 := RegisterUser(st, name, email, password, now).store;
    var n := |st.users|;
    assert forall j :: 0 <= j < n ==> st2.users[j] == st.users[j];
    if LoginUser(st2, email, other).answer.Success? {
      var i :| && 0 <= i < |st2.users| && st2.users[i].email == email
               && st2.users[i].password == Security.EncodePassword(other).value;
      assert i == n;
      Security.EncodePasswordInjective(password, other);
    } else {
      assert st2.users[n].email == email;
    }
  }

  /** Registering and then logging in with the same credentials opens a
      session for the new account, with its fresh stats and no password. */
  lemma RegisterThenLogin(st: Store, name: string, email: string, password: string, now: string)
    requires RegisterUser(st, name, email, password, now).answer.Success?
    ensures var st2 := RegisterUser(st, name, email, password, now).store;
            var r := LoginUser(st2, email, password);
            && r.answer == Success(SessionUser(name, email, now, InitialStats))
            && r.store.session == Some(SessionUser(name, email, now, InitialStats))
  {
    var st2 := RegisterUser(st, name, email, password, now).store;
    var n := |st.users|;
    assert st2.users[n].email == email;
    assert forall j :: 0 <= j < n ==> st2.users[j] == st.users[j];
    var r := LoginUser(st2, email, password);
    var i :| && 0 <= i < |st2.users| && st2.users[i].email == email
             && st2.users[i].password == Security.EncodePassword(password).value
             && r.answer.value == Strip(st2.users[i]);
    assert i == n;
  }

  /** `DB.logoutUser`: the session entry becomes `null`. */
  function LogoutUser(st: Store): (r: Store)
    ensures r.session.None?
    ensures r.users == st.users && r.scores == st.scores
    ensures Valid(st) ==> Valid(r)
  {
    st.(session := None)
  }

  /** Logging out after logging in restores a logged-out store. */
  lemma LoginThenLogout(st: Store, email: string, password: string)
    requires st.session.None?
    ensures LogoutUser(LoginUser(st, email, password).store) == st
  {
  }

  // ---------------------------------------------------------------------
  // updateUserStats

  /** JavaScript falsiness of a stored best time / move count. */
  predicate Falsy(v: Option<int>)
  {
    v.None? || v.value == 0
  }

  /** The per-game update of one account's stats. */
  function ImproveStats(s: Stats, g: Game, value: int): (r: Stats)
    ensures g == Math ==> r.mathBestScore == (if value > s.mathBestScore then value else s.mathBestScore)
    ensures g != Math ==> r.mathBestScore == s.mathBestScore
    ensures g != Color ==> r.colorBestTime == s.colorBestTime
    ensures g != Puzzle ==> r.puzzleBestMoves == s.puzzleBestMoves
  {
    match g
    case Math => if value > s.mathBestScore then s.(mathBestScore := value) else s
    case Color =>
      if Falsy(s.colorBestTime) || value < s.colorBestTime.value then s.(colorBestTime := Some(value)) else s
    case Puzzle =>
      if Falsy(s.puzzleBestMoves) || value < s.puzzleBestMoves.value then s.(puzzleBestMoves := Some(value)) else s
  }

  /** The best math score becomes the maximum of old and new; a lower-is-
      better field becomes the minimum of old and new, except that an
      absent or zero old value is simply replaced. */
  lemma ImproveStatsIsBest(s: Stats, g: Game, value: int)
    ensures var r := ImproveStats(s, g, value);
            && (g == Math ==>
                  (&& r.mathBestScore >= s.mathBestScore && r.mathBestScore >= value
                   && (r.mathBestScore == s.mathBestScore || r.mathBestScore == value)))
            && (g == Color ==>
                  (&& r.colorBestTime.Some?
                   && (Falsy(s.colorBestTime) ==> r.colorBestTime.value == value)
                   && (!Falsy(s.colorBestTime) ==> r.colorBestTime.value == Min(s.colorBestTime.value, value))))
            && (g == Puzzle ==>
                  (&& r.puzzleBestMoves.Some?
                   && (Falsy(s.puzzleBestMoves) ==> r.puzzleBestMoves.value == value)
                   && (!Falsy(s.puzzleBestMoves) ==> r.puzzleBestMoves.value == Min(s.puzzleBestMoves.value, value))))
  {
  }

  /** A stored zero counts as "no result yet", so it can be replaced by a
      worse (larger) time: the update is monotone only for non-zero values. */
  lemma ZeroTimeIsOverwritten()
    ensures ImproveStats(Stats(0, Some(0), None), Color, 45).colorBestTime == Some(45)
  {
  }

  /** `DB.updateUserStats`: improves the stats of the first account with
      e-mail `userId`, and copies them into the session when the session
      belongs to that e-mail. An unknown e-mail changes nothing. */
  function UpdateUserStats(st: Store, userId: string, g: Game, value: int): (r: Store)
    ensures !HasEmail(st.users, userId) ==> r == st
    ensures |r.users| == |st.users| && r.scores == st.scores
    ensures forall j :: 0 <= j < |st.users| && st.users[j].email != userId ==> r.users[j] == st.users[j]
    ensures forall j :: 0 <= j < |st.users| ==>
              r.users[j] == st.users[j] || r.users[j] == st.users[j].(stats := ImproveStats(st.users[j].stats, g, value))
    ensures HasEmail(st.users, userId) ==>
              exists i :: && 0 <= i < |st.users| && st.users[i].email == userId
                          && r.users[i] == st.users[i].(stats := ImproveStats(st.users[i].stats, g, value))
                          && (st.session.Some? && st.session.value.email == userId ==>
                                r.session == Some(st.session.value.(stats := r.users[i].stats)))
    ensures !(st.session.Some? && st.session.value.email == userId) ==> r.session == st.session
  {
    match FirstIndex(st.users, (u: User) => u.email == userId)
    case None => st
    case Some(i) =>
      var u := st.users[i];
      var updated := u.(stats := ImproveStats(u.stats, g, value));
      var session :=
        if st.session.Some? && st.session.value.email == userId
        then Some(st.session.value.(stats := updated.stats))
        else st.session;
      Store(st.users[i := updated], st.scores, session)
  }

  /** The stats update keeps the store valid: names, e-mails and passwords
      are untouched and the session copy follows its account. */
  lemma UpdateUserStatsPreservesValid(st: Store, userId: string, g: Game, value: int)
    requires Valid(st)
    ensures Valid(UpdateUserStats(st, userId, g, value))
  {
    var r := UpdateUserStats(st, userId, g, value);
    assert forall j :: 0 <= j < |st.users| ==> r.users[j].email == st.users[j].email;
    if st.session.Some? && HasEmail(st.users, userId) {
      var k :| 0 <= k < |st.users| && st.users[k].email == st.session.value.email
               && Strip(st.users[k]) == st.session.value;
      var i :| && 0 <= i < |st.users| && st.users[i].email == userId
               && r.users[i] == st.users[i].(stats := ImproveStats(st.users[i].stats, g, value))
               && (st.session.Some? && st.session.value.email == userId ==>
                     r.session == Some(st.session.value.(stats := r.users[i].stats)));
      if st.session.value.email == userId {
        assert k == i;
        assert Strip(r.users[i]) == r.session.value;
      } else {
        assert r.users[k] == st.users[k];
      }
    }
  }
}

=== FILE: base64.dfy ===
/** The base64 encoding of section 4 of RFC 4648, as the browser's `btoa`
    applies it to a string whose characters are all below 256 (each
    character is one octet). `Decode` is the inverse used to show that the
    encoding loses nothing. */
module Base64 {
  import opened Common

  type Byte = b: int | 0 <= b < 256
  type Sextet = v: int | 0 <= v < 64

  const Pad: char := '='

  predicate IsAlphabetChar(c: char)
  {
    ('A' <= c <= 'Z') || ('a' <= c <= 'z') || ('0' <= c <= '9') || c == '+' || c == '/'
  }

  /** The value of an alphabet character (Table 1 of RFC 4648). */
  function CharSextet(c: char): Sextet
    requires IsAlphabetChar(c)
  {
    if 'A' <= c <= 'Z' then c as int - 'A' as int
    else if 'a' <= c <= 'z' then c as int - 'a' as int + 26
    else if '0' <= c <= '9' then c as int - '0' as int + 52
    else if c == '+' then 62
    else 63
  }

  /** The alphabet character of a 6-bit value; CharSextet undoes it. */
  function SextetChar(v: Sextet): (c: char)
    ensures IsAlphabetChar(c) && CharSextet(c) == v
  {
    if v < 26 then (65 + v) as char
    else if v < 52 then (97 + v - 26) as char
    else if v < 62 then (48 + v - 52) as char
    else if v == 62 then '+'
    else '/'
  }

  /** Encodes octets, three at a time into four characters; a final group
      of one or two octets is zero-filled and padded with '='. */
  function Encode(bs: seq<Byte>): (r: string)
    ensures |r| == 4 * ((|bs| + 2) / 3)
    ensures forall i :: 0 <= i < |r| ==> IsAlphabetChar(r[i]) || r[i] == Pad
    decreases |bs|
  {
    if |bs| == 0 then ""
    else if |bs| == 1 then
      [SextetChar(bs[0] / 4), SextetChar((bs[0] % 4) * 16), Pad, Pad]
    else if |bs| == 2 then
      [SextetChar(bs[0] / 4), SextetChar((bs[0] % 4) * 16 + bs[1] / 16),
       SextetChar((bs[1] % 16) * 4), Pad]
    else
      var q, rest := FirstQuad(bs[0], bs[1], bs[2]), Encode(bs[3..]);
      assert (|bs| + 2) / 3 == (|bs[3..]| + 2) / 3 + 1;
      assert forall i :: 4 <= i < |q + rest| ==> (q + rest)[i] == rest[i - 4];
      q + rest
  }

  /** Decodes one four-character group; `last` says whether padding may
      appear (only the final group of a text may be padded). */
  function DecodeQuad(c0: char, c1: char, c2: char, c3: char, last: bool): Option<seq<Byte>>
  {
    if !IsAlphabetChar(c0) || !IsAlphabetChar(c1) then None
    else
      var v0, v1 := CharSextet(c0), CharSextet(c1);
      if c2 == Pad && c3 == Pad then
        if last then Some([v0 * 4 + v1 / 16]) else None
      else if !IsAlphabetChar(c2) then None
      else
        var v2 := CharSextet(c2);
        if c3 == Pad then
          if last then Some([v0 * 4 + v1 / 16, (v1 % 16) * 16 + v2 / 4]) else None
        else if !IsAlphabetChar(c3) then None
        else
          var v3 := CharSextet(c3);
          Some([v0 * 4 + v1 / 16, (v1 % 16) * 16 + v2 / 4, (v2 % 4) * 64 + v3])
  }

  /** Decodes a padded base64 text, or None when it is not one. */
  function Decode(s: string): Option<seq<Byte>>
    decreases |s|
  {
    if |s| == 0 then Some([])
    else if |s| < 4 then None
    else match DecodeQuad(s[0], s[1], s[2], s[3], |s| == 4)
      case None => None
      case Some(group) =>
        match Decode(s[4..])
        case None => None
        case Some(rest) => Some(group + rest)
  }

  lemma SplitOctet(b: Byte, q: int)
    requires q == 4 || q == 16 || q == 64
    ensures (b / q) * q + b % q == b
  {
  }

  /** The three octets of a full group survive the trip through sextets. */
  lemma GroupRoundTrip(b0: Byte, b1: Byte, b2: Byte)
    ensures var s1 := (b0 % 4) * 16 + b1 / 16;
            var s2 := (b1 % 16) * 4 + b2 / 64;
            && (b0 / 4) * 4 + s1 / 16 == b0
            && (s1 % 16) * 16 + s2 / 4 == b1
            && (s2 % 4) * 64 + b2 % 64 == b2
  {
    SplitOctet(b0, 4);
    SplitOctet(b1, 16);
    SplitOctet(b2, 64);
  }

  lemma OneOctetRoundTrip(b0: Byte)
    ensures Decode(Encode([b0])) == Some([b0])
  {
    SplitOctet(b0, 4);
    var e := Encode([b0]);
    assert CharSextet(e[0]) == b0 / 4 && CharSextet(e[1]) == (b0 % 4) * 16;
    assert e[2] == Pad && e[3] == Pad;
    assert DecodeQuad(e[0], e[1], e[2], e[3], true) == Some([b0]);
    assert e[4..] == [];
    assert Decode(e[4..]) == Some([]);
    assert [b0] + [] == [b0];
  }

  lemma TwoOctetRoundTrip(b0: Byte, b1: Byte)
    ensures Decode(Encode([b0, b1])) == Some([b0, b1])
  {
    GroupRoundTrip(b0, b1, 0);
    var e := Encode([b0, b1]);
    var s1: Sextet := (b0 % 4) * 16 + b1 / 16;
    assert CharSextet(e[0]) == b0 / 4 && CharSextet(e[1]) == s1;
    assert CharSextet(e[2]) == (b1 % 16) * 4 && e[3] == Pad;
    assert DecodeQuad(e[0], e[1], e[2], e[3], true) == Some([b0, b1]);
    assert e[4..] == [];
    assert Decode(e[4..]) == Some([]);
    assert [b0, b1] + [] == [b0, b1];
  }

  /** The four characters of a full first group. */
  function FirstQuad(b0: Byte, b1: Byte, b2: Byte): (q: string)
    ensures |q| == 4 && forall i :: 0 <= i < 4 ==> IsAlphabetChar(q[i])
  {
    [SextetChar(b0 / 4), SextetChar((b0 % 4) * 16 + b1 / 16),
     SextetChar((b1 % 16) * 4 + b2 / 64), SextetChar(b2 % 64)]
  }

  lemma FullGroupRoundTrip(b0: Byte, b1: Byte, b2: Byte, last: bool)
    ensures var q := FirstQuad(b0, b1, b2);
            DecodeQuad(q[0], q[1], q[2], q[3], last) == Some([b0, b1, b2])
  {
    GroupRoundTrip(b0, b1, b2);
  }

  /** Decoding undoes encoding, so `Encode` is injective. */
  lemma {:induction false} DecodeEncode(bs: seq<Byte>)
    ensures Decode(Encode(bs)) == Some(bs)
    decreases |bs|
  {
    if |bs| == 1 {
      assert bs == [bs[0]];
      OneOctetRoundTrip(bs[0]);
    } else if |bs| == 2 {
      assert bs == [bs[0], bs[1]];
      TwoOctetRoundTrip(bs[0], bs[1]);
    } else if |bs| >= 3 {
      DecodeEncode(bs[3..]);
      GroupThenRest(bs);
    }
  }

  lemma SplitThree<T>(s: seq<T>)
    requires |s| >= 3
    ensures s == [s[0], s[1], s[2]] + s[3..]
  {
  }

  /** A group that decodes, followed by a text that decodes. */
  lemma DecodeGroup(q: string, rest: string, group: seq<Byte>, tail: seq<Byte>)
    requires |q| == 4 && DecodeQuad(q[0], q[1], q[2], q[3], |rest| == 0) == Some(group)
    requires Decode(rest) == Some(tail)
    ensures Decode(q + rest) == Some(group + tail)
  {
    var e := q + rest;
    assert e[0] == q[0] && e[1] == q[1] && e[2] == q[2] && e[3] == q[3];
    assert e[4..] == rest;
  }

  /** A full first group decodes back, and so does the rest. */
  lemma GroupThenRest(bs: seq<Byte>)
    requires |bs| >= 3 && Decode(Encode(bs[3..])) == Some(bs[3..])
    ensures Decode(Encode(bs)) == Some(bs)
  {
    var b0, b1, b2 := bs[0], bs[1], bs[2];
    var q, rest := FirstQuad(b0, b1, b2), Encode(bs[3..]);
    FullGroupRoundTrip(b0, b1, b2, |rest| == 0);
    DecodeGroup(q, rest, [b0, b1, b2], bs[3..]);
    assert Encode(bs) == q + rest;
    SplitThree(bs);
  }

  lemma EncodeInjective(a: seq<Byte>, b: seq<Byte>)
    requires Encode(a) == Encode(b)
    ensures a == b
  {
    DecodeEncode(a);
    DecodeEncode(b);
  }
}

=== FILE: colormatch.dfy ===
/** The colour-matching memory game of games-module.js: sixteen face-down
    cells holding eight colours twice each, turned over two at a time. */
module ColorMatch {
  import opened Common
  import Shuffle

  /** `colorList`. */
  const Palette: seq<string> :=
    ["#FF6B6B", "#4ECDC4", "#FFD166", "#06D6A0", "#118AB2", "#073B4C", "#EF476F", "#7209B7"]

  const PairCount: nat := 8
  const CellCount: nat := 16

  lemma PaletteDistinct()
    ensures |Palette| == PairCount && Distinct(Palette)
  {
  }

  /** `[...colorList, ...colorList]`, shuffled by the given draws. */
  function Deal(draws: seq<nat>): (deck: seq<string>)
    requires Shuffle.ValidDraws(CellCount, draws)
    ensures |deck| == CellCount
    ensures forall x :: multiset(deck)[x] == (if x in Palette then 2 else 0)
  {
    PaletteDistinct();
    DistinctCounts(Palette);
    Shuffle.ShuffleArray(Palette + Palette, draws)
  }

  /** Every colour on the board occurs on exactly two cells. */
  predicate Paired(deck: seq<string>)
  {
    |deck| == CellCount && forall i :: 0 <= i < |deck| ==> multiset(deck)[deck[i]] == 2
  }

  /** `colors`, the `matched` cells, `selectedColors` (cell indices),
      `colorMoves`, `matchedPairs` (kept equal to `colorPairs`),
      `colorTime`, and `over` for the cleared interval. */
  datatype ColorGame = ColorGame(deck: seq<string>, matched: set<nat>, selected: seq<nat>,
                                 moves: nat, pairs: nat, time: nat, over: bool)

  /** The selection holds turned, unmatched cells of the board. */
  predicate SelectionOk(g: ColorGame)
  {
    && |g.selected| <= 2 && Distinct(g.selected)
    && forall k :: 0 <= k < |g.selected| ==> g.selected[k] < |g.deck| && g.selected[k] !in g.matched
  }

  /** A dealt board has every colour on two cells. */
  lemma DealIsPaired(draws: seq<nat>)
    requires Shuffle.ValidDraws(CellCount, draws)
    ensures Paired(Deal(draws))
  {
    var deck := Deal(draws);
    assert forall i :: 0 <= i < |deck| ==> deck[i] in multiset(deck);
  }

  /** The game invariant: matched cells come in whole colour pairs, the
      pair counter counts them, the game is over exactly when all eight
      pairs are found, and every found pair took a move. */
  predicate Inv(g: ColorGame)
  {
    && Paired(g.deck)
    && (forall i :: i in g.matched ==> i < CellCount)
    && (forall i, j :: i in g.matched && 0 <= j < |g.deck| && g.deck[j] == g.deck[i] ==> j in g.matched)
    && |g.matched| == 2 * g.pairs
    && SelectionOk(g)
    && (g.over <==> g.pairs == PairCount)
    && (g.over ==> g.selected == [])
    && g.moves >= g.pairs + (if |g.selected| == 2 then 1 else 0)
  }

  /** `initColorMatch`. */
  function StartColor(draws: seq<nat>): (g: ColorGame)
    requires Shuffle.ValidDraws(CellCount, draws)
    ensures Inv(g) && g.pairs == 0 && g.moves == 0 && g.time == 0
    ensures g.deck == Deal(draws) && g.matched == {} && g.selected == [] && !g.over
  {
    DealIsPaired(draws);
    ColorGame(Deal(draws), {}, [], 0, 0, 0, false)
  }

  /** At most sixteen cells can be matched, so at most eight pairs; when
      all eight are found every cell is matched. */
  lemma PairsBounded(g: ColorGame)
    requires Inv(g)
    ensures g.pairs <= PairCount
    ensures g.over ==> forall i :: 0 <= i < CellCount ==> i in g.matched
  {
    var all: set<int> := Range(CellCount);
    var m: set<int> := set i | i in g.matched :: i as int;
    assert m <= all;
    assert |m| == |g.matched| by {
      assert m == g.matched;
    }
    SubsetCard(m, all);
    if g.over {
      SubsetSameCardIsEqual(m, all);
      assert forall i :: 0 <= i < CellCount ==> i in m;
    }
  }

  /** `filter(item => item.index !== index)`. */
  function Without(s: seq<nat>, x: nat): (r: seq<nat>)
    ensures forall y :: y in r <==> y in s && y != x
    ensures Distinct(s) ==> Distinct(r) && |r| == |s| - (if x in s then 1 else 0)
    decreases |s|
  {
    if |s| == 0 then []
    else
      var rest := Without(s[1..], x);
      if s[0] == x then
        assert Distinct(s) ==> x !in s[1..];
        rest
      else
        assert Distinct(s) ==> s[0] !in rest;
        [s[0]] + rest
  }

  /** `selectColorCell`: ignored while two cells are turned or on a
      matched cell; a turned cell is turned back; otherwise the cell is
      turned, and turning the second cell counts a move. */
  function SelectColorCell(g: ColorGame, i: nat): (r: ColorGame)
    requires i < |g.deck|
    ensures |g.selected| >= 2 || i in g.matched ==> r == g
    ensures |g.selected| < 2 && i !in g.matched && i !in g.selected ==> r.selected == g.selected + [i]
    ensures |g.selected| < 2 && i !in g.matched && i in g.selected ==> r.selected == Without(g.selected, i)
    ensures |g.selected| < 2 && i !in g.matched && i in g.selected ==>
              forall x :: x in r.selected <==> x in g.selected && x != i
    ensures r.moves == g.moves + (if |g.selected| == 1 && i !in g.matched && i !in g.selected then 1 else 0)
    ensures r.deck == g.deck && r.matched == g.matched && r.pairs == g.pairs
    ensures r.time == g.time && r.over == g.over
    ensures Inv(g) ==> Inv(r)
  {
    assert Inv(g) && g.over ==> i in g.matched by {
      if Inv(g) { PairsBounded(g); }
    }
    if |g.selected| >= 2 || i in g.matched then g
    else if i in g.selected then
      g.(selected := Without(g.selected, i))
    else
      var sel := g.selected + [i];
      assert forall k :: 0 <= k < |g.selected| ==> sel[k] == g.selected[k];
      g.(selected := sel, moves := if |sel| == 2 then g.moves + 1 else g.moves)
  }

  /** What the timeout after a second turned cell returns: the game, and
      whether `endColorGame` ran. */
  datatype Flip = Flip(game: ColorGame, ended: bool)

  /** Two matched cells of one colour complete the colour's pair. */
  lemma MatchClosed(g: ColorGame, a: nat, b: nat, j: nat)
    requires Paired(g.deck)
    requires a < |g.deck| && b < |g.deck| && j < |g.deck| && a != b
    requires g.deck[a] == g.deck[b] && g.deck[j] == g.deck[a]
    ensures j == a || j == b
  {
    if j != a && j != b {
      ThreePositions(g.deck, g.deck[a], a, b, j);
    }
  }

  /** The timeouts: a matching pair is marked matched and counted, and
      the eighth pair ends the game; a mismatch is just turned back. */
  function ResolveSelection(g: ColorGame): (r: Flip)
    requires SelectionOk(g)
    ensures |g.selected| != 2 ==> r.game == g && !r.ended
    ensures |g.selected| == 2 ==> r.game.selected == []
    ensures |g.selected| == 2 && g.deck[g.selected[0]] == g.deck[g.selected[1]] ==>
              && r.game.matched == g.matched + {g.selected[0], g.selected[1]}
              && r.game.pairs == g.pairs + 1
    ensures |g.selected| == 2 && g.deck[g.selected[0]] != g.deck[g.selected[1]] ==>
              r.game == g.(selected := [])
    ensures r.ended <==> r.game.pairs == PairCount && r.game.pairs != g.pairs
    ensures r.game.deck == g.deck && r.game.moves == g.moves && r.game.time == g.time
    ensures Inv(g) ==> Inv(r.game)
  {
    if |g.selected| != 2 then Flip(g, false)
    else
      var a, b := g.selected[0], g.selected[1];
      if g.deck[a] == g.deck[b] then
        var pairs := g.pairs + 1;
        var r := g.(matched := g.matched + {a, b}, pairs := pairs, selected := [],
                    over := g.over || pairs == PairCount);
        assert Inv(g) ==> Inv(r) by {
          if Inv(g) {
            PairsBounded(g);
            forall i, j | i in r.matched && 0 <= j < |r.deck| && r.deck[j] == r.deck[i]
              ensures j in r.matched
            {
              if i == a || i == b { MatchClosed(g, a, b, j); }
            }
            assert |r.matched| == |g.matched| + 2;
          }
        }
        Flip(r, pairs == PairCount)
      else Flip(g.(selected := []), false)
  }

  /** The one-second interval: the clock runs until the game is over. */
  function Tick(g: ColorGame): (r: ColorGame)
    ensures r.time == if g.over then g.time else g.time + 1
    ensures r == g.(time := r.time)
    ensures Inv(g) ==> Inv(r)
  {
    if g.over then g else g.(time := g.time + 1)
  }

  // ---------------------------------------------------------------------
  // Whole games

  datatype ColorEvent = Click(cell: nat) | Timeout | Second

  datatype ColorRun = ColorRun(game: ColorGame, ends: nat)

  function Step(g: ColorGame, e: ColorEvent): (r: Flip)
    requires Inv(g)
    ensures Inv(r.game)
  {
    match e
    case Click(i) => if i < |g.deck| then Flip(SelectColorCell(g, i), false) else Flip(g, false)
    case Timeout => ResolveSelection(g)
    case Second => Flip(Tick(g), false)
  }

  function Run(g: ColorGame, evs: seq<ColorEvent>): (r: ColorRun)
    requires Inv(g)
    ensures Inv(r.game)
    decreases |evs|
  {
    if |evs| == 0 then ColorRun(g, 0)
    else
      var t := Step(g, evs[0]);
      var rest := Run(t.game, evs[1..]);
      ColorRun(rest.game, rest.ends + if t.ended then 1 else 0)
  }

  /** The game ends at most once: exactly when a run turns a game in
      progress into a finished one. A finished game changes no more. */
  lemma {:induction false} RunEndsOnce(g: ColorGame, evs: seq<ColorEvent>)
    requires Inv(g)
    ensures Run(g, evs).ends == (if Run(g, evs).game.over && !g.over then 1 else 0)
    ensures g.over ==> Run(g, evs).game == g
    decreases |evs|
  {
    if |evs| > 0 {
      var t := Step(g, evs[0]);
      PairsBounded(g);
      if g.over {
        assert t.game == g;
      }
      RunEndsOnce(t.game, evs[1..]);
      PairsBounded(t.game);
    }
  }

  /** A finished game has every cell matched, took at least one move per
      pair, and its pair counter shows eight. */
  lemma FinishedGame(g: ColorGame)
    requires Inv(g) && g.over
    ensures g.pairs == PairCount && g.moves >= PairCount
    ensures forall i :: 0 <= i < CellCount ==> i in g.matched
  {
    PairsBounded(g);
  }
}

=== FILE: common.dfy ===
/** Shared vocabulary for the games hub model: optional and fallible values,
    a first-match search, an element swap, and a few counting facts about
    sequences and finite sets that several components rely on. */
module Common {

  /** A value that may be absent (JavaScript's `null` / `-1` "not found"). */
  datatype Option<+T> = None | Some(value: T)

  /** The `{ success, ... }` objects the store returns. */
  datatype Result<+T, +E> = Success(value: T) | Failure(error: E)

  function Min(a: int, b: int): int
  {
    if a <= b then a else b
  }

  /** `Math.abs(a - b)`. */
  function Distance(a: int, b: int): nat
  {
    if a < b then b - a else a - b
  }

  /** `Array.prototype.findIndex`: the position of the first element that
      satisfies `p`, or None when no element does. */
  function FirstIndex<T>(s: seq<T>, p: T -> bool): (r: Option<nat>)
    ensures r.Some? ==> r.value < |s| && p(s[r.value])
    ensures r.Some? ==> forall j :: 0 <= j < r.value ==> !p(s[j])
    ensures r.None? <==> forall j :: 0 <= j < |s| ==> !p(s[j])
    decreases |s|
  {
    if |s| == 0 then None
    else if p(s[0]) then Some(0)
    else match FirstIndex(s[1..], p)
      case None => None
      case Some(k) => Some(k + 1)
  }

  /** No element occurs twice. */
  predicate Distinct<T(==)>(s: seq<T>)
  {
    forall i, j :: 0 <= i < j < |s| ==> s[i] != s[j]
  }

  lemma {:induction false} DistinctCounts<T>(s: seq<T>)
    requires Distinct(s)
    ensures forall x :: multiset(s)[x] <= 1
    decreases |s|
  {
    if |s| > 0 {
      assert s == [s[0]] + s[1..];
      DistinctCounts(s[1..]);
      assert s[0] !in s[1..];
    }
  }

  /** A non-empty sequence is its front followed by its last element. */
  lemma SplitLast<T>(s: seq<T>)
    requires |s| > 0
    ensures s == s[..|s| - 1] + [s[|s| - 1]]
  {
  }

  /** Exchanges the elements at positions i and j. */
  function Swap<T>(s: seq<T>, i: nat, j: nat): (r: seq<T>)
    requires i < |s| && j < |s|
    ensures |r| == |s| && r[i] == s[j] && r[j] == s[i]
    ensures forall k :: 0 <= k < |s| && k != i && k != j ==> r[k] == s[k]
  {
    s[i := s[j]][j := s[i]]
  }

  lemma SwapPreservesMultiset<T>(s: seq<T>, i: nat, j: nat)
    requires i < |s| && j < |s|
    ensures multiset(Swap(s, i, j)) == multiset(s)
  {
  }

  /** The positions at which x occurs in s. */
  ghost function Positions<T>(s: seq<T>, x: T): set<int>
  {
    set i | 0 <= i < |s| && s[i] == x
  }

  lemma {:induction false} CountIsPositions<T>(s: seq<T>, x: T)
    ensures multiset(s)[x] == |Positions(s, x)|
    decreases |s|
  {
    if |s| > 0 {
      var n := |s| - 1;
      var init := s[..n];
      assert s == init + [s[n]];
      CountIsPositions(init, x);
      if s[n] == x {
        assert Positions(s, x) == Positions(init, x) + {n};
        assert n !in Positions(init, x);
      } else {
        assert Positions(s, x) == Positions(init, x);
      }
    }
  }

  lemma {:induction false} SubsetCard<T>(a: set<T>, b: set<T>)
    requires a <= b
    ensures |a| <= |b|
    decreases |b|
  {
    if a != {} {
      var x :| x in a;
      SubsetCard(a - {x}, b - {x});
    }
  }

  /** A subset as large as its superset is the superset. */
  lemma SubsetSameCardIsEqual<T>(a: set<T>, b: set<T>)
    requires a <= b && |a| == |b|
    ensures a == b
  {
    if a != b {
      var x :| x in b && x !in a;
      SubsetCard(a, b - {x});
    }
  }

  /** The indices 0 .. n-1 as a set. */
  ghost function Range(n: nat): (r: set<int>)
    ensures forall i :: i in r <==> 0 <= i < n
    ensures |r| == n
  {
    if n == 0 then {} else Range(n - 1) + {n - 1}
  }

  /** Two positions holding an element that occurs exactly once coincide. */
  lemma SinglePosition<T>(s: seq<T>, x: T, i: nat, j: nat)
    requires multiset(s)[x] == 1
    requires i < |s| && j < |s| && s[i] == x && s[j] == x
    ensures i == j
  {
    CountIsPositions(s, x);
    if i != j {
      assert {i, j} <= Positions(s, x);
      SubsetCard({i, j}, Positions(s, x));
    }
  }

  /** x occurs once exactly when position i is the only one holding it. */
  lemma OnlyPositionIff<T>(s: seq<T>, x: T, i: nat)
    requires i < |s| && s[i] == x
    ensures multiset(s)[x] == 1 <==> forall j :: 0 <= j < |s| && j != i ==> s[j] != x
  {
    CountIsPositions(s, x);
    if forall j :: 0 <= j < |s| && j != i ==> s[j] != x {
      assert Positions(s, x) == {i};
    } else {
      var j :| 0 <= j < |s| && j != i && s[j] == x;
      assert {i, j} <= Positions(s, x);
      SubsetCard({i, j}, Positions(s, x));
    }
  }

  /** What a sequence has beyond its first n elements lies after them. */
  lemma BeyondPrefix<T>(s: seq<T>, n: nat, x: T)
    requires n <= |s| && x in multiset(s) - multiset(s[..n])
    ensures exists j :: n <= j < |s| && s[j] == x
  {
    assert s == s[..n] + s[n..];
    assert multiset(s) == multiset(s[..n]) + multiset(s[n..]);
    assert x in s[n..];
    var j :| 0 <= j < |s| - n && s[n..][j] == x;
    assert s[n + j] == x;
  }

  /** Three distinct positions holding x mean x occurs at least three times. */
  lemma ThreePositions<T>(s: seq<T>, x: T, i: nat, j: nat, k: nat)
    requires i < |s| && j < |s| && k < |s|
    requires i != j && j != k && i != k
    requires s[i] == x && s[j] == x && s[k] == x
    ensures multiset(s)[x] >= 3
  {
    CountIsPositions(s, x);
    assert {i, j, k} <= Positions(s, x);
    SubsetCard({i, j, k}, Positions(s, x));
  }
}

=== FILE: mathquiz.dfy ===
/** The math quiz of games-module.js: question generation, the four answer
    options, scoring and the 60-second countdown. `Math.random` is replaced
    by its outcomes, passed in as parameters. */
module MathQuiz {
  import opened Common
  import Shuffle

  datatype Operator = Plus | Minus | Times

  /** `Math.floor(Math.random() * 10) + 1`. */
  type Operand = n: int | 1 <= n <= 10 witness 1

  /** `Math.floor(Math.random() * 5) + 1`. */
  type Offset = o: int | 1 <= o <= 5 witness 1

  /** One round of the option loop: the offset and the sign drawn. */
  datatype Candidate = Candidate(offset: Offset, negative: bool)

  datatype Question = Question(num1: int, num2: int, op: Operator, correctAnswer: int, options: seq<int>)

  const OptionCount: nat := 4
  const RoundSeconds: nat := 60
  const PointsPerHit: nat := 10

  function Apply(op: Operator, a: int, b: int): int
  {
    match op
    case Plus => a + b
    case Minus => a - b
    case Times => a * b
  }

  /** A wrong answer the loop accepts: near the right one, different from
      it, and positive. */
  predicate Distractor(c: int, w: int)
  {
    w != c && w > 0 && Distance(w, c) <= 5
  }

  /** The options gathered so far: the right answer first, then distinct
      distractors. */
  predicate Gathered(c: int, options: seq<int>)
  {
    && 1 <= |options| <= OptionCount && options[0] == c && Distinct(options)
    && forall i :: 1 <= i < |options| ==> Distractor(c, options[i])
  }

  function CandidateValue(c: int, cand: Candidate): int
  {
    if cand.negative then c - cand.offset else c + cand.offset
  }

  /** The `while (options.length < 4)` loop of `generateMathOptions`, run
      over the given candidates. None means the candidates ran out before
      four options were gathered: the loop was still running. */
  function CollectOptions(c: int, options: seq<int>, cands: seq<Candidate>): (r: Option<seq<int>>)
    requires Gathered(c, options)
    ensures r.Some? ==> |r.value| == OptionCount && Gathered(c, r.value)
    ensures r.Some? ==> r.value[..|options|] == options
    decreases |cands|
  {
    if |options| == OptionCount then Some(options)
    else if |cands| == 0 then None
    else
      var w := CandidateValue(c, cands[0]);
      if w != c && w > 0 && w !in options then
        var r := CollectOptions(c, options + [w], cands[1..]);
        assert r.Some? ==> r.value[..|options|] == r.value[..|options| + 1][..|options|];
        r
      else CollectOptions(c, options, cands[1..])
  }

  /** The options a question shows: four different numbers, the right
      answer exactly once, and three positive distractors near it. */
  predicate ValidOptions(c: int, opts: seq<int>)
  {
    && |opts| == OptionCount
    && multiset(opts)[c] == 1
    && (forall x :: x in multiset(opts) ==> multiset(opts)[x] == 1)
    && (forall i :: 0 <= i < |opts| ==> opts[i] == c || Distractor(c, opts[i]))
  }

  /** `generateMathOptions`: gather, then shuffle. */
  function GenerateMathOptions(c: int, cands: seq<Candidate>, draws: seq<nat>): (r: Option<seq<int>>)
    requires Shuffle.ValidDraws(OptionCount, draws)
    ensures r.Some? ==> ValidOptions(c, r.value)
    ensures r.Some? <==> CollectOptions(c, [c], cands).Some?
  {
    match CollectOptions(c, [c], cands)
    case None => None
    case Some(opts) =>
      var r := Shuffle.ShuffleArray(opts, draws);
      DistinctCounts(opts);
      assert opts[0] == c;
      assert multiset(opts)[c] >= 1;
      forall i | 0 <= i < |r| ensures r[i] == c || Distractor(c, r[i]) {
        assert r[i] in multiset(opts);
      }
      Some(r)
  }

  // ---------------------------------------------------------------------
  // When does the loop finish?

  /** A sequence of different numbers, all drawn from t, is no longer
      than t is large. */
  lemma {:induction false} DistinctWithin(s: seq<int>, t: set<int>)
    requires Distinct(s)
    requires forall i :: 0 <= i < |s| ==> s[i] in t
    ensures |s| <= |t|
    decreases |s|
  {
    if |s| > 0 {
      assert forall i :: 0 <= i < |s[1..]| ==> s[1..][i] == s[i + 1] && s[i + 1] != s[0];
      DistinctWithin(s[1..], t - {s[0]});
    }
  }

  /** Below -2 only 1 and 2 are positive and within five of the answer, so
      no run of the loop gathers a fourth option. */
  lemma {:induction false} CollectStalls(c: int, options: seq<int>, cands: seq<Candidate>)
    requires c < -2 && Gathered(c, options)
    ensures CollectOptions(c, options, cands).None?
    decreases |cands|
  {
    DistinctWithin(options, {c, 1, 2});
    if |cands| > 0 {
      var w := CandidateValue(c, cands[0]);
      if w != c && w > 0 && w !in options {
        var next := options + [w];
        assert forall i :: 1 <= i < |next| ==> Distractor(c, next[i]);
        DistinctWithin(next, {c, 1, 2});
        CollectStalls(c, next, cands[1..]);
      } else {
        CollectStalls(c, options, cands[1..]);
      }
    }
  }

  /** A fresh distractor is appended and the loop moves on. */
  lemma GatherOne(c: int, options: seq<int>, cand: Candidate, rest: seq<Candidate>)
    requires Gathered(c, options) && |options| < OptionCount
    requires Distractor(c, CandidateValue(c, cand)) && CandidateValue(c, cand) !in options
    ensures Gathered(c, options + [CandidateValue(c, cand)])
    ensures CollectOptions(c, options, [cand] + rest)
              == CollectOptions(c, options + [CandidateValue(c, cand)], rest)
  {
    assert ([cand] + rest)[0] == cand && ([cand] + rest)[1..] == rest;
  }

  /** From -2 upward the draws +3, +4, +5 finish the loop. */
  lemma CollectFinishes(c: int)
    requires c >= -2
    ensures CollectOptions(c, [c], [Candidate(3, false), Candidate(4, false), Candidate(5, false)]).Some?
  {
    var c3, c4, c5 := Candidate(3, false), Candidate(4, false), Candidate(5, false);
    var o1, o2, o3 := [c], [c, c + 3], [c, c + 3, c + 4];
    assert Gathered(c, o1);
    assert [c3, c4, c5] == [c3] + [c4, c5] && [c4, c5] == [c4] + [c5] && [c5] == [c5] + [];
    GatherOne(c, o1, c3, [c4, c5]);
    assert o1 + [c + 3] == o2;
    GatherOne(c, o2, c4, [c5]);
    assert o2 + [c + 4] == o3;
    GatherOne(c, o3, c5, []);
  }

  /** The option loop can finish exactly when the right answer is at least
      -2; for a smaller answer it runs forever whatever `Math.random` says. */
  lemma OptionsFinishIff(c: int)
    ensures (exists cands :: CollectOptions(c, [c], cands).Some?) <==> c >= -2
  {
    if c >= -2 {
      CollectFinishes(c);
    } else {
      forall cands ensures CollectOptions(c, [c], cands).None? {
        CollectStalls(c, [c], cands);
      }
    }
  }

  // ---------------------------------------------------------------------
  // loadMathQuestion

  /** `loadMathQuestion` as written: `num1 - num2` may be as low as -9, and
      then the option loop never returns (None). */
  function LoadMathQuestionAsWritten(num1: Operand, num2: Operand, op: Operator,
                                     cands: seq<Candidate>, draws: seq<nat>): (r: Option<Question>)
    requires Shuffle.ValidDraws(OptionCount, draws)
    ensures r.Some? ==> r.value.correctAnswer == Apply(op, num1, num2)
    ensures r.Some? ==> ValidOptions(r.value.correctAnswer, r.value.options)
  {
    var c := Apply(op, num1, num2);
    match GenerateMathOptions(c, cands, draws)
    case None => None
    case Some(opts) => Some(Question(num1, num2, op, c, opts))
  }

  /** 1 - 10 freezes the page: no sequence of random draws ends the loop. */
  lemma SubtractionQuestionHangs(cands: seq<Candidate>, draws: seq<nat>)
    requires Shuffle.ValidDraws(OptionCount, draws)
    ensures LoadMathQuestionAsWritten(1, 10, Minus, cands, draws).None?
  {
    CollectStalls(-9, [-9], cands);
  }

  /** The operands in the order the question shows them: for subtraction
      the larger one comes first, so the answer is never negative. */
  function Posed(num1: Operand, num2: Operand, op: Operator): (r: (int, int))
    ensures r == (num1 as int, num2 as int) || r == (num2 as int, num1 as int)
    ensures op != Minus ==> r == (num1 as int, num2 as int)
    ensures Apply(op, r.0, r.1) >= 0
  {
    if op == Minus && num1 < num2 then (num2 as int, num1 as int) else (num1 as int, num2 as int)
  }

  /** The right answer of the posed question. */
  function PosedAnswer(num1: Operand, num2: Operand, op: Operator): (c: int)
    ensures c >= 0
    ensures op == Minus ==> c == Distance(num1, num2)
    ensures op != Minus ==> c == Apply(op, num1, num2)
  {
    var (a, b) := Posed(num1, num2, op);
    Apply(op, a, b)
  }

  /** `loadMathQuestion` with subtraction posed as larger minus smaller. */
  function LoadMathQuestion(num1: Operand, num2: Operand, op: Operator,
                            cands: seq<Candidate>, draws: seq<nat>): (r: Option<Question>)
    requires Shuffle.ValidDraws(OptionCount, draws)
    ensures r.Some? ==> r.value.correctAnswer == Apply(op, r.value.num1, r.value.num2) == PosedAnswer(num1, num2, op)
    ensures r.Some? ==> ValidOptions(r.value.correctAnswer, r.value.options)
    ensures r.Some? <==> CollectOptions(PosedAnswer(num1, num2, op), [PosedAnswer(num1, num2, op)], cands).Some?
  {
    var (a, b) := Posed(num1, num2, op);
    var c := PosedAnswer(num1, num2, op);
    match GenerateMathOptions(c, cands, draws)
    case None => None
    case Some(opts) => Some(Question(a, b, op, c, opts))
  }

  /** Every question the corrected loader can pose is finished by the
      draws +3, +4, +5, so no random outcome leaves the loop without an
      exit. */
  lemma LoadMathQuestionCanFinish(num1: Operand, num2: Operand, op: Operator, draws: seq<nat>)
    requires Shuffle.ValidDraws(OptionCount, draws)
    ensures LoadMathQuestion(num1, num2, op, [Candidate(3, false), Candidate(4, false), Candidate(5, false)], draws).Some?
  {
    CollectFinishes(PosedAnswer(num1, num2, op));
  }

  // ---------------------------------------------------------------------
  // The running game

  /** `mathScore`, `mathTimer`, `currentQuestion`; `answered` stands for the
      options' `pointerEvents = 'none'`, `over` for the cleared interval. */
  datatype MathGame = MathGame(score: int, timer: int, question: Question, answered: bool, over: bool)

  /** `initMathQuiz`: score 0, 60 seconds, the first question. */
  function StartMath(q: Question): (g: MathGame)
    ensures Running(g) && g.score == 0 && g.timer == RoundSeconds && !g.answered
  {
    MathGame(0, RoundSeconds, q, false, false)
  }

  /** The invariant of a game in progress or finished: the clock runs from
      60 down to 0, the game is over exactly at 0, and the score is a
      non-negative multiple of 10. */
  predicate Running(g: MathGame)
  {
    && 0 <= g.timer <= RoundSeconds
    && (g.over <==> g.timer == 0)
    && g.score >= 0 && g.score % PointsPerHit == 0
  }

  /** What a step returns: the new game, and whether `endMathGame` ran. */
  datatype Tock = Tock(game: MathGame, ended: bool)

  /** One tick of the interval: count down; at zero stop the interval, end
      the game and disable the options. A stopped interval does nothing. */
  function Tick(g: MathGame): (r: Tock)
    ensures Running(g) ==> Running(r.game)
    ensures r.ended <==> !g.over && g.timer - 1 <= 0
    ensures r.game.score == g.score
    ensures g.over ==> r.game == g && !r.ended
    ensures !g.over ==> r.game.timer == g.timer - 1 && r.game.question == g.question
    ensures !g.over ==> (r.game.over <==> r.ended) && r.game.answered == (g.answered || r.ended)
  {
    if g.over then Tock(g, false)
    else if g.timer - 1 <= 0 then Tock(g.(timer := g.timer - 1, over := true, answered := true), true)
    else Tock(g.(timer := g.timer - 1), false)
  }

  /** A click on the option showing `value`: ten points when it is the
      right answer; a disabled option (already answered, or game over)
      does nothing. */
  function Answer(g: MathGame, value: int): (r: MathGame)
    ensures Running(g) ==> Running(r)
    ensures r.score == g.score + (if !g.answered && !g.over && value == g.question.correctAnswer then PointsPerHit else 0)
    ensures r.timer == g.timer && r.over == g.over && r.question == g.question
    ensures g.answered || g.over ==> r == g
    ensures !g.answered && !g.over ==> r.answered
  {
    if g.answered || g.over then g
    else g.(answered := true, score := g.score + if value == g.question.correctAnswer then PointsPerHit else 0)
  }

  /** The 1.5-second timeout after an answer: the next question appears
      only while time is left. */
  function NextQuestion(g: MathGame, q: Question): (r: MathGame)
    ensures Running(g) ==> Running(r)
    ensures r.score == g.score && r.timer == g.timer && r.over == g.over
    ensures r.question == (if g.answered && g.timer > 0 then q else g.question)
    ensures g.answered && g.timer > 0 ==> !r.answered
    ensures !(g.answered && g.timer > 0) ==> r == g
  {
    if g.answered && g.timer > 0 then g.(question := q, answered := false) else g
  }

  /** Options are disabled after the first click, so a question scores at
      most once: a second click changes nothing. */
  lemma AnswerScoresOnce(g: MathGame, first: int, second: int)
    ensures Answer(Answer(g, first), second) == Answer(g, first)
  {
  }

  /** The next question enables the options again: while the game runs,
      its right answer scores after an answered question. */
  lemma NextQuestionScoresAgain(g: MathGame, first: int, q: Question)
    requires !g.over && g.timer > 0
    ensures Answer(NextQuestion(Answer(g, first), q), q.correctAnswer).score
              == Answer(g, first).score + PointsPerHit
  {
  }

  /** Generated options show the right answer at exactly one position,
      so exactly one option scores. */
  lemma OneRightOption(c: int, opts: seq<int>)
    requires ValidOptions(c, opts)
    ensures exists i :: 0 <= i < |opts| && opts[i] == c
    ensures forall i, j :: 0 <= i < |opts| && 0 <= j < |opts| && opts[i] == c && opts[j] == c ==> i == j
  {
    assert c in opts;
    forall i, j | 0 <= i < |opts| && 0 <= j < |opts| && opts[i] == c && opts[j] == c
      ensures i == j
    {
      SinglePosition(opts, c, i, j);
    }
  }

  // ---------------------------------------------------------------------
  // Whole games

  datatype MathEvent = Second | Click(value: int) | Timeout(next: Question)

  /** The game after a sequence of events, and how many times it ended. */
  datatype MathRun = MathRun(game: MathGame, ends: nat)

  function Step(g: MathGame, e: MathEvent): Tock
  {
    match e
    case Second => Tick(g)
    case Click(v) => Tock(Answer(g, v), false)
    case Timeout(q) => Tock(NextQuestion(g, q), false)
  }

  function Run(g: MathGame, evs: seq<MathEvent>): MathRun
    decreases |evs|
  {
    if |evs| == 0 then MathRun(g, 0)
    else
      var t := Step(g, evs[0]);
      var rest := Run(t.game, evs[1..]);
      MathRun(rest.game, rest.ends + if t.ended then 1 else 0)
  }

  function Seconds(evs: seq<MathEvent>): nat
    decreases |evs|
  {
    if |evs| == 0 then 0 else (if evs[0].Second? then 1 else 0) + Seconds(evs[1..])
  }

  function Clicks(evs: seq<MathEvent>): nat
    decreases |evs|
  {
    if |evs| == 0 then 0 else (if evs[0].Click? then 1 else 0) + Clicks(evs[1..])
  }

  /** The clock: after n ticks the timer shows max(0, timer - n), and the
      game ends exactly once, on the tick that reaches zero. */
  lemma {:induction false} RunEndsOnce(g: MathGame, evs: seq<MathEvent>)
    requires Running(g)
    ensures var r := Run(g, evs);
            && Running(r.game)
            && r.game.timer == (if g.timer <= Seconds(evs) then 0 else g.timer - Seconds(evs))
            && r.ends == (if 0 < g.timer <= Seconds(evs) then 1 else 0)
    decreases |evs|
  {
    if |evs| > 0 {
      RunEndsOnce(Step(g, evs[0]).game, evs[1..]);
    }
  }

  /** A full round: the game ends exactly once, after the 60th tick. */
  lemma MathRoundEndsOnce(q: Question, evs: seq<MathEvent>)
    ensures Run(StartMath(q), evs).ends == (if Seconds(evs) >= RoundSeconds then 1 else 0)
    ensures Run(StartMath(q), evs).game.over <==> Seconds(evs) >= RoundSeconds
  {
    RunEndsOnce(StartMath(q), evs);
  }

  /** Each click earns at most ten points, and once the game is over the
      score it reported no longer changes. */
  lemma {:induction false} RunScore(g: MathGame, evs: seq<MathEvent>)
    ensures g.score <= Run(g, evs).game.score <= g.score + PointsPerHit * Clicks(evs)
    ensures g.over ==> Run(g, evs).game.score == g.score
    decreases |evs|
  {
    if |evs| > 0 {
      var t := Step(g, evs[0]);
      RunScore(t.game, evs[1..]);
      assert t.game.over ==> g.over || evs[0].Second?;
    }
  }
}

=== FILE: puzzle.dfy ===
/** The sliding number puzzle of games-module.js: a 3x3 board holding the
    tiles 1..8 and a blank (0), shuffled by random blank moves from the
    solved position, solved by clicking tiles next to the blank. */
module Puzzle {
  import opened Common

  type Board = seq<int>

  /** `[1, 2, 3, 4, 5, 6, 7, 8, 0]`. */
  const Goal: Board := [1, 2, 3, 4, 5, 6, 7, 8, 0]
  const Side: nat := 3
  const Cells: nat := 9
  const ShuffleRounds: nat := 100

  /** Nine cells with exactly one blank. Which tiles the other cells hold
      is tracked separately: every move keeps the multiset of tiles. */
  predicate IsBoard(s: Board)
  {
    && |s| == Cells && 0 in s
    && forall i, j :: 0 <= i < |s| && 0 <= j < |s| && s[i] == 0 && s[j] == 0 ==> i == j
  }

  lemma GoalIsBoard()
    ensures IsBoard(Goal)
  {
    assert Goal[8] == 0;
  }

  /** `puzzleState.indexOf(0)`. */
  function BlankIndex(s: Board): (e: nat)
    requires 0 in s
    ensures e < |s| && s[e] == 0
    ensures forall j :: 0 <= j < e ==> s[j] != 0
    decreases |s|
  {
    if s[0] == 0 then 0
    else
      assert 0 in s[1..] by { assert s == [s[0]] + s[1..]; }
      1 + BlankIndex(s[1..])
  }

  /** On a board the blank is the only 0. */
  lemma BlankIsUnique(s: Board, j: nat)
    requires IsBoard(s) && j < |s| && s[j] == 0
    ensures BlankIndex(s) == j
  {
  }

  /** A cell of the 3x3 grid. */
  type Cell = c: int | 0 <= c < 9

  /** The cells the blank may move to, in the order the shuffle lists them. */
  function PossibleMoves(e: Cell): (r: seq<Cell>)
    ensures 2 <= |r| <= 4
  {
    (if e % Side > 0 then [e - 1] else [])
    + (if e % Side < Side - 1 then [e + 1] else [])
    + (if e >= Side then [e - Side] else [])
    + (if e < Cells - Side then [e + Side] else [])
  }

  /** The row of a cell, by comparisons. */
  function Row(c: int): int
  {
    if c < Side then 0 else if c < 2 * Side then 1 else 2
  }

  /** On the board, the row is `Math.floor(c / 3)`. */
  lemma RowIsFloorThird(c: int)
    requires 0 <= c < Cells
    ensures Row(c) == c / Side
  {
  }

  /** The adjacency test of `movePuzzleCell`: one apart within a row, or
      three apart. */
  predicate IsAdjacent(c: int, e: int)
  {
    (Distance(c, e) == 1 && Row(c) == Row(e)) || Distance(c, e) == Side
  }

  /** The shuffle's neighbour list and the click handler's adjacency test
      describe the same grid. */
  lemma PossibleMovesAreAdjacent(e: Cell, m: int)
    ensures m in PossibleMoves(e) <==> 0 <= m < Cells && IsAdjacent(m, e)
  {
  }

  lemma AdjacentSymmetric(c: int, e: int)
    ensures IsAdjacent(c, e) <==> IsAdjacent(e, c)
  {
  }

  // ---------------------------------------------------------------------
  // shufflePuzzle

  /** `Math.random()` cut into twelfths: twelve is a multiple of every
      neighbour count (2, 3, 4), so `Math.floor(Math.random() * n)` is
      `d * n / 12` for the twelfth d the random number falls in. */
  type Twelfth = d: int | 0 <= d < 12

  function Pick(moves: seq<Cell>, d: Twelfth): (m: Cell)
    requires 2 <= |moves| <= 4
    ensures m in moves
  {
    moves[d * |moves| / 12]
  }

  /** Every neighbour can be drawn. */
  lemma EveryMoveCanBePicked(moves: seq<Cell>, k: nat)
    requires 2 <= |moves| <= 4 && k < |moves|
    ensures exists d: Twelfth :: Pick(moves, d) == moves[k]
  {
    var n := |moves|;
    var d: Twelfth := if n == 2 then 6 * k else if n == 3 then 4 * k else 3 * k;
    assert d * n / 12 == k;
    assert Pick(moves, d) == moves[k];
  }

  /** Moves the tile at m into the blank at e. */
  function Slide(s: Board, e: Cell, m: Cell): (r: Board)
    requires IsBoard(s) && s[e] == 0 && e != m
    ensures IsBoard(r)
    ensures r[m] == 0 && r[e] == s[m]
    ensures forall k :: 0 <= k < |s| && k != e && k != m ==> r[k] == s[k]
  {
    Swap(s, e, m)
  }

  /** A slide keeps the tiles. */
  lemma SlideKeepsTiles(s: Board, e: Cell, m: Cell)
    requires IsBoard(s) && s[e] == 0 && e != m
    ensures multiset(Slide(s, e, m)) == multiset(s)
  {
    SwapPreservesMultiset(s, e, m);
  }

  /** One round of the shuffle loop: the blank trades places with a
      randomly chosen neighbour. */
  function ShuffleStep(s: Board, d: Twelfth): (r: Board)
    requires IsBoard(s)
    ensures IsBoard(r)
    ensures var e := BlankIndex(s);
            var m := Pick(PossibleMoves(e), d);
            IsAdjacent(m, e) && r == Slide(s, e, m)
  {
    var e := BlankIndex(s);
    var m := Pick(PossibleMoves(e), d);
    PossibleMovesAreAdjacent(e, m);
    Slide(s, e, m)
  }

  /** The shuffle rounds, one per draw. */
  function ShuffleRoundsFrom(s: Board, draws: seq<Twelfth>): (r: Board)
    requires IsBoard(s)
    ensures IsBoard(r)
    decreases |draws|
  {
    if |draws| == 0 then s else ShuffleRoundsFrom(ShuffleStep(s, draws[0]), draws[1..])
  }

  /** `shufflePuzzle`: a hundred rounds. */
  function ShufflePuzzle(s: Board, draws: seq<Twelfth>): (r: Board)
    requires IsBoard(s) && |draws| == ShuffleRounds
    ensures IsBoard(r) && multiset(r) == multiset(s)
  {
    ShuffleKeepsTiles(s, draws);
    ShuffleRoundsFrom(s, draws)
  }

  /** The shuffle rounds keep the tiles. */
  lemma {:induction false} ShuffleKeepsTiles(s: Board, draws: seq<Twelfth>)
    requires IsBoard(s)
    ensures multiset(ShuffleRoundsFrom(s, draws)) == multiset(s)
    decreases |draws|
  {
    if |draws| > 0 {
      var e := BlankIndex(s);
      SlideKeepsTiles(s, e, Pick(PossibleMoves(e), draws[0]));
      ShuffleKeepsTiles(ShuffleStep(s, draws[0]), draws[1..]);
    }
  }

  // ---------------------------------------------------------------------
  // Clicking tiles

  /** The board part of `movePuzzleCell`: a tile next to the blank slides
      into it; any other click changes nothing. */
  function Click(s: Board, c: Cell): (r: Board)
    requires IsBoard(s)
    ensures IsBoard(r)
    ensures IsAdjacent(c, BlankIndex(s)) ==> r == Slide(s, BlankIndex(s), c)
    ensures !IsAdjacent(c, BlankIndex(s)) ==> r == s
  {
    var e := BlankIndex(s);
    if IsAdjacent(c, e) then Slide(s, e, c) else s
  }

  function ClickAll(s: Board, clicks: seq<Cell>): (r: Board)
    requires IsBoard(s)
    ensures IsBoard(r)
    decreases |clicks|
  {
    if |clicks| == 0 then s else ClickAll(Click(s, clicks[0]), clicks[1..])
  }

  /** Where the blank was before each shuffle round. */
  function BlankTrail(s: Board, draws: seq<Twelfth>): (r: seq<Cell>)
    requires IsBoard(s)
    ensures |r| == |draws|
    decreases |draws|
  {
    if |draws| == 0 then []
    else
      [BlankIndex(s)] + BlankTrail(ShuffleStep(s, draws[0]), draws[1..])
  }

  /** After a tile slides, the blank sits where the tile was, and clicking
      the blank's old cell slides the tile back. */
  lemma ClickBack(s: Board, c: Cell)
    requires IsBoard(s)
    requires IsAdjacent(c, BlankIndex(s))
    ensures BlankIndex(Click(s, c)) == c
    ensures Click(Click(s, c), BlankIndex(s)) == s
  {
    var e := BlankIndex(s);
    var t := Click(s, c);
    assert t == Slide(s, e, c);
    assert BlankIndex(t) == c by { BlankIsUnique(t, c); }
    assert IsAdjacent(e, c) by { AdjacentSymmetric(c, e); }
    var u := Click(t, e);
    assert u == Slide(t, c, e);
    assert u == s by {
      assert forall k :: 0 <= k < |s| ==> u[k] == s[k];
    }
  }

  /** Clicking the blank's previous cell undoes one shuffle round. */
  lemma ClickUndoesStep(s: Board, d: Twelfth)
    requires IsBoard(s)
    ensures Click(ShuffleStep(s, d), BlankIndex(s)) == s
  {
    var e := BlankIndex(s);
    var m := Pick(PossibleMoves(e), d);
    assert IsAdjacent(m, e) && ShuffleStep(s, d) == Click(s, m);
    ClickBack(s, m);
  }

  lemma {:induction false} ClickAllAppend(s: Board, a: seq<Cell>, b: seq<Cell>)
    requires IsBoard(s)
    ensures ClickAll(s, a + b) == ClickAll(ClickAll(s, a), b)
    decreases |a|
  {
    if |a| > 0 {
      assert (a + b)[0] == a[0];
      assert (a + b)[1..] == a[1..] + b;
      ClickAllAppend(Click(s, a[0]), a[1..], b);
    } else {
      assert a + b == b;
    }
  }

  function Reverse<T>(s: seq<T>): (r: seq<T>)
    ensures |r| == |s| && forall k :: 0 <= k < |s| ==> r[k] == s[|s| - 1 - k]
    decreases |s|
  {
    if |s| == 0 then [] else Reverse(s[1..]) + [s[0]]
  }

  /** Every shuffled board is solvable: clicking the cells the blank left,
      latest first, leads back to the starting board. */
  lemma {:induction false} ShuffleIsUndoable(s: Board, draws: seq<Twelfth>)
    requires IsBoard(s)
    ensures ClickAll(ShuffleRoundsFrom(s, draws), Reverse(BlankTrail(s, draws))) == s
    decreases |draws|
  {
    if |draws| > 0 {
      var t := ShuffleStep(s, draws[0]);
      ShuffleIsUndoable(t, draws[1..]);
      var e := BlankIndex(s);
      var tail := Reverse(BlankTrail(t, draws[1..]));
      assert BlankTrail(s, draws) == [e] + BlankTrail(t, draws[1..]);
      assert Reverse(BlankTrail(s, draws)) == tail + [e];
      assert ShuffleRoundsFrom(s, draws) == ShuffleRoundsFrom(t, draws[1..]);
      ClickAllAppend(ShuffleRoundsFrom(t, draws[1..]), tail, [e]);
      ClickUndoesStep(s, draws[0]);
      assert ClickAll(t, [e]) == Click(t, e);
    }
  }

  /** The puzzle the player gets holds the goal's tiles and can always be
      solved. */
  lemma ShuffledPuzzleIsSolvable(draws: seq<Twelfth>)
    requires |draws| == ShuffleRounds
    ensures IsBoard(Goal)
    ensures multiset(ShufflePuzzle(Goal, draws)) == multiset(Goal)
    ensures exists clicks :: ClickAll(ShufflePuzzle(Goal, draws), clicks) == Goal
  {
    GoalIsBoard();
    ShuffleIsUndoable(Goal, draws);
  }

  /** `isPuzzleSolved`: tiles 1..8 in order and the blank last. */
  function IsPuzzleSolved(s: Board): (r: bool)
    requires |s| == Cells
    ensures r <==> s == Goal
  {
    (forall i :: 0 <= i < Cells - 1 ==> s[i] == i + 1) && s[Cells - 1] == 0
  }

  // ---------------------------------------------------------------------
  // The game as written

  /** `puzzleState` and `puzzleMoves`. */
  datatype PuzzleGame = PuzzleGame(cells: Board, moves: nat)

  /** What a click returns: the game, and whether `endPuzzleGame` ran. */
  datatype Move = Move(game: PuzzleGame, ended: bool)

  /** The board `initNumberPuzzle` deals: the goal after a hundred
      shuffle rounds. */
  function ShuffledGoal(draws: seq<Twelfth>): (r: Board)
    requires |draws| == ShuffleRounds
    ensures IsBoard(r) && multiset(r) == multiset(Goal)
    ensures exists clicks :: ClickAll(r, clicks) == Goal
  {
    ShuffledPuzzleIsSolvable(draws);
    ShufflePuzzle(Goal, draws)
  }

  /** `initNumberPuzzle`: the shuffled goal, which can be solved, and no
      moves yet. */
  function StartPuzzle(draws: seq<Twelfth>): (g: PuzzleGame)
    requires |draws| == ShuffleRounds
    ensures IsBoard(g.cells) && multiset(g.cells) == multiset(Goal) && g.moves == 0
    ensures g.cells == ShuffledGoal(draws)
    ensures exists clicks :: ClickAll(g.cells, clicks) == Goal
  {
    PuzzleGame(ShuffledGoal(draws), 0)
  }

  /** `movePuzzleCell` as written: an adjacent click slides the tile,
      counts a move, and reports the end whenever the board is solved. */
  function MovePuzzleCellAsWritten(g: PuzzleGame, c: Cell): (r: Move)
    requires IsBoard(g.cells)
    ensures IsBoard(r.game.cells)
    ensures r.game.cells == Click(g.cells, c)
    ensures r.game.moves == g.moves + (if IsAdjacent(c, BlankIndex(g.cells)) then 1 else 0)
    ensures r.ended <==> IsAdjacent(c, BlankIndex(g.cells)) && r.game.cells == Goal
  {
    if IsAdjacent(c, BlankIndex(g.cells)) then
      var cells := Click(g.cells, c);
      Move(PuzzleGame(cells, g.moves + 1), IsPuzzleSolved(cells))
    else Move(g, false)
  }

  function RunAsWritten(g: PuzzleGame, clicks: seq<Cell>): (ends: nat)
    requires IsBoard(g.cells)
    decreases |clicks|
  {
    if |clicks| == 0 then 0
    else
      var m := MovePuzzleCellAsWritten(g, clicks[0]);
      (if m.ended then 1 else 0) + RunAsWritten(m.game, clicks[1..])
  }

  /** The board one slide away from solved. */
  const NearlySolved: Board := [1, 2, 3, 4, 5, 6, 7, 0, 8]

  lemma NearlySolvedIsBoard()
    ensures IsBoard(NearlySolved) && BlankIndex(NearlySolved) == 7
  {
    assert NearlySolved[7] == 0;
    BlankIsUnique(NearlySolved, 7);
  }

  lemma FromNearlySolved(c: Board)
    requires |c| == Cells && c[7] == 8 && c[8] == 0
    requires forall k :: 0 <= k < 7 ==> c[k] == NearlySolved[k]
    ensures c == Goal
  {
  }

  /** Clicking 8, beside the blank, solves the nearly solved board. */
  lemma NearlySolvedIsOneSlideAway()
    ensures IsBoard(NearlySolved) && BlankIndex(NearlySolved) == 7
    ensures IsAdjacent(8, BlankIndex(NearlySolved)) && IsPuzzleSolved(Click(NearlySolved, 8))
  {
    NearlySolvedIsBoard();
    var c := Click(NearlySolved, 8);
    assert c == Slide(NearlySolved, 7, 8);
    assert c[8] == 0 && c[7] == 8;
    FromNearlySolved(c);
  }

  /** Sliding the last tile back out of a board that one click solved
      restores that board, which is not solved. */
  lemma Unsolve(s: Board, c: Cell, e: Cell)
    requires IsBoard(s) && e == BlankIndex(s)
    requires IsAdjacent(c, e) && IsPuzzleSolved(Click(s, c))
    ensures IsAdjacent(e, BlankIndex(Click(s, c)))
    ensures Click(Click(s, c), e) == s && !IsPuzzleSolved(s)
  {
    var t := Click(s, c);
    ClickBack(s, c);
    AdjacentSymmetric(c, e);
    assert t[c] == 0 by { assert t == Slide(s, e, c); }
    assert c == Cells - 1;
    assert s[e] == 0 && e < Cells - 1;
  }

  /** The solving click ends the game as written. */
  lemma SolvingMove(g: PuzzleGame, c: Cell, e: Cell)
    requires IsBoard(g.cells) && e == BlankIndex(g.cells)
    requires IsAdjacent(c, e) && IsPuzzleSolved(Click(g.cells, c))
    ensures MovePuzzleCellAsWritten(g, c) == Move(PuzzleGame(Click(g.cells, c), g.moves + 1), true)
  {
  }

  /** Sliding the tile back out counts a move and does not end the game. */
  lemma UnsolvingMove(s: Board, c: Cell, e: Cell, k: nat)
    requires IsBoard(s) && e == BlankIndex(s)
    requires IsAdjacent(c, e) && IsPuzzleSolved(Click(s, c))
    ensures MovePuzzleCellAsWritten(PuzzleGame(Click(s, c), k), e) == Move(PuzzleGame(s, k + 1), false)
  {
    var r := MovePuzzleCellAsWritten(PuzzleGame(Click(s, c), k), e);
    Unsolve(s, c, e);
    assert r.game.cells == s && r.game.moves == k + 1;
    assert s != Goal;
    assert !r.ended;
  }

  /** On any board one slide from solved, solving it, sliding the tile
      back out and solving it again reports the end twice. */
  lemma SolvedTwiceFrom(g: PuzzleGame, c: Cell, e: Cell)
    requires IsBoard(g.cells) && e == BlankIndex(g.cells)
    requires IsAdjacent(c, e) && IsPuzzleSolved(Click(g.cells, c))
    ensures RunAsWritten(g, [c, e, c]) == 2
  {
    var g1, g2 := PuzzleGame(Click(g.cells, c), g.moves + 1), PuzzleGame(g.cells, g.moves + 2);
    SolvingMove(g, c, e);
    UnsolvingMove(g.cells, c, e, g.moves + 1);
    SolvingMove(g2, c, e);
    var clicks := [c, e, c];
    var rest1 := clicks[1..];
    var rest2 := rest1[1..];
    assert rest1[0] == e && rest2[0] == c && |rest2| == 1;
    assert RunAsWritten(g2, rest2) == 1;
  }

  /** From the nearly solved board, the clicks 8, 7, 8 report the end
      twice, so the score is recorded twice. */
  lemma SolvedTwiceAsWritten(n: nat)
    ensures IsBoard(NearlySolved)
    ensures RunAsWritten(PuzzleGame(NearlySolved, n), [8, 7, 8]) == 2
  {
    NearlySolvedIsOneSlideAway();
    SolvedTwiceFrom(PuzzleGame(NearlySolved, n), 8, 7);
  }

  // ---------------------------------------------------------------------
  // The game with its end recorded

  /** The puzzle with `over`: once solved, the board stops taking clicks. */
  datatype FinishingGame = FinishingGame(cells: Board, moves: nat, over: bool)

  function MovePuzzleCell(g: FinishingGame, c: Cell): (r: (FinishingGame, bool))
    requires IsBoard(g.cells)
    ensures IsBoard(r.0.cells)
    ensures g.over ==> r == (g, false)
    ensures !g.over ==>
              var m := MovePuzzleCellAsWritten(PuzzleGame(g.cells, g.moves), c);
              && r.0 == FinishingGame(m.game.cells, m.game.moves, m.ended)
              && r.1 == m.ended
  {
    if g.over then (g, false)
    else
      var m := MovePuzzleCellAsWritten(PuzzleGame(g.cells, g.moves), c);
      (FinishingGame(m.game.cells, m.game.moves, m.ended), m.ended)
  }

  function Run(g: FinishingGame, clicks: seq<Cell>): (r: (FinishingGame, nat))
    requires IsBoard(g.cells)
    ensures IsBoard(r.0.cells)
    decreases |clicks|
  {
    if |clicks| == 0 then (g, 0)
    else
      var (h, ended) := MovePuzzleCell(g, clicks[0]);
      var (last, ends) := Run(h, clicks[1..]);
      (last, ends + if ended then 1 else 0)
  }

  /** The end is reported at most once, exactly when an unfinished game
      gets solved, and the reported board is the goal. */
  lemma {:induction false} RunEndsOnce(g: FinishingGame, clicks: seq<Cell>)
    requires IsBoard(g.cells)
    ensures Run(g, clicks).1 == (if Run(g, clicks).0.over && !g.over then 1 else 0)
    ensures g.over ==> Run(g, clicks).0 == g
    ensures Run(g, clicks).0.over && !g.over ==> Run(g, clicks).0.cells == Goal
    decreases |clicks|
  {
    if |clicks| > 0 {
      RunEndsOnce(MovePuzzleCell(g, clicks[0]).0, clicks[1..]);
    }
  }
}

=== FILE: ranking.dfy ===
/** The per-game leaderboards of the store (`DB.addScore`, `DB.getRanking`,
    `DB.getUserRank` in script.js). Each board is kept in the order of its
    game's comparator, ties in insertion order, and cut to 50 rows. */
module Ranking {
  import opened Common

  datatype Game = Math | Color | Puzzle

  /** One row. `userId` is the player's e-mail; `date` is an opaque timestamp. */
  datatype ScoreEntry = ScoreEntry(userId: string, userName: string, score: int, date: string)

  const MaxEntries: nat := 50

  /** The three boards of the `scores` object. */
  datatype Scores = Scores(math: seq<ScoreEntry>, color: seq<ScoreEntry>, puzzle: seq<ScoreEntry>)
  {
    function Board(g: Game): seq<ScoreEntry>
    {
      match g
      case Math => math
      case Color => color
      case Puzzle => puzzle
    }

    function WithBoard(g: Game, b: seq<ScoreEntry>): (r: Scores)
      ensures r.Board(g) == b
      ensures forall h :: h != g ==> r.Board(h) == Board(h)
    {
      match g
      case Math => this.(math := b)
      case Color => this.(color := b)
      case Puzzle => this.(puzzle := b)
    }
  }

  /** The boards `DB.init` creates. */
  const EmptyScores: Scores := Scores([], [], [])

  /** Boards are kept in non-decreasing key order: math compares with
      `b.score - a.score` (best score first), the timed and move-counting
      games with `a.score - b.score` (fewest first). */
  function Key(g: Game, e: ScoreEntry): int
  {
    if g == Math then -e.score else e.score
  }

  predicate Sorted(g: Game, s: seq<ScoreEntry>)
  {
    forall i, j :: 0 <= i < j < |s| ==> Key(g, s[i]) <= Key(g, s[j])
  }

  /** The entries of s whose key is k, in their order in s. */
  function WithKey(g: Game, s: seq<ScoreEntry>, k: int): seq<ScoreEntry>
    decreases |s|
  {
    if |s| == 0 then []
    else (if Key(g, s[0]) == k then [s[0]] else []) + WithKey(g, s[1..], k)
  }

  /** t is a stable sort of s: ordered by key, and the entries of each key
      appear in t exactly as they appear in s. This is what
      `Array.prototype.sort` produces with the game's comparator. */
  ghost predicate IsStableSortOf(g: Game, t: seq<ScoreEntry>, s: seq<ScoreEntry>)
  {
    Sorted(g, t) && forall k :: WithKey(g, t, k) == WithKey(g, s, k)
  }

  /** Places e after every entry whose key is not greater than its own. */
  function Insert(g: Game, e: ScoreEntry, s: seq<ScoreEntry>): (r: seq<ScoreEntry>)
    ensures |r| == |s| + 1
    ensures multiset(r) == multiset(s) + multiset{e}
    decreases |s|
  {
    if |s| == 0 then [e]
    else if Key(g, e) < Key(g, s[0]) then [e] + s
    else
      assert s == [s[0]] + s[1..];
      [s[0]] + Insert(g, e, s[1..])
  }

  /** Insertion sort, one entry at a time in their original order. */
  function StableSort(g: Game, s: seq<ScoreEntry>): (r: seq<ScoreEntry>)
    ensures |r| == |s|
    ensures multiset(r) == multiset(s)
    decreases |s|
  {
    if |s| == 0 then []
    else
      assert s == s[..|s| - 1] + [s[|s| - 1]];
      Insert(g, s[|s| - 1], StableSort(g, s[..|s| - 1]))
  }

  // ---------------------------------------------------------------------
  // Facts about WithKey

  lemma WithKeyCons(g: Game, s: seq<ScoreEntry>, k: int)
    requires |s| > 0
    ensures WithKey(g, s, k) == WithKey(g, [s[0]], k) + WithKey(g, s[1..], k)
  {
    assert WithKey(g, [s[0]], k) == (if Key(g, s[0]) == k then [s[0]] else []) + WithKey(g, [], k);
  }

  lemma {:induction false} WithKeyAppend(g: Game, a: seq<ScoreEntry>, b: seq<ScoreEntry>, k: int)
    ensures WithKey(g, a + b, k) == WithKey(g, a, k) + WithKey(g, b, k)
    decreases |a|
  {
    if |a| == 0 {
      assert a + b == b;
    } else {
      var ab := a + b;
      assert ab[0] == a[0];
      assert ab[1..] == a[1..] + b;
      WithKeyAppend(g, a[1..], b, k);
      WithKeyCons(g, ab, k);
      WithKeyCons(g, a, k);
    }
  }

  lemma {:induction false} WithKeyMembers(g: Game, s: seq<ScoreEntry>, k: int)
    ensures forall x :: x in WithKey(g, s, k) <==> x in s && Key(g, x) == k
    decreases |s|
  {
    if |s| > 0 {
      WithKeyMembers(g, s[1..], k);
      assert s == [s[0]] + s[1..];
    }
  }

  lemma {:induction false} WithKeyAbove(g: Game, s: seq<ScoreEntry>, k: int)
    requires forall i :: 0 <= i < |s| ==> Key(g, s[i]) > k
    ensures WithKey(g, s, k) == []
    decreases |s|
  {
    if |s| > 0 {
      WithKeyAbove(g, s[1..], k);
    }
  }

  // ---------------------------------------------------------------------
  // Insertion and the stable sort

  /** A key bound shared by e and every entry of s holds for the insertion. */
  lemma {:induction false} InsertKeepsBound(g: Game, e: ScoreEntry, s: seq<ScoreEntry>, m: int)
    requires Key(g, e) >= m && forall i :: 0 <= i < |s| ==> Key(g, s[i]) >= m
    ensures forall j :: 0 <= j < |s| + 1 ==> Key(g, Insert(g, e, s)[j]) >= m
    decreases |s|
  {
    if |s| > 0 && Key(g, e) >= Key(g, s[0]) {
      InsertKeepsBound(g, e, s[1..], m);
    }
  }

  lemma {:induction false} InsertKeepsOrder(g: Game, e: ScoreEntry, s: seq<ScoreEntry>)
    requires Sorted(g, s)
    ensures Sorted(g, Insert(g, e, s))
    decreases |s|
  {
    if |s| > 0 && Key(g, e) >= Key(g, s[0]) {
      var tail := s[1..];
      InsertKeepsOrder(g, e, tail);
      InsertKeepsBound(g, e, tail, Key(g, s[0]));
      assert Insert(g, e, s) == [s[0]] + Insert(g, e, tail);
    }
  }

  /** Inserting in front of larger keys appends e to its own key's entries. */
  lemma InsertInFrontKeyOrder(g: Game, e: ScoreEntry, s: seq<ScoreEntry>, k: int)
    requires Sorted(g, s) && |s| > 0 && Key(g, e) < Key(g, s[0])
    ensures WithKey(g, [e] + s, k) == WithKey(g, s, k) + WithKey(g, [e], k)
  {
    WithKeyAppend(g, [e], s, k);
    if Key(g, e) == k {
      assert forall i :: 0 <= i < |s| ==> Key(g, s[i]) >= Key(g, s[0]);
      WithKeyAbove(g, s, k);
    } else {
      assert WithKey(g, [e], k) == [];
    }
  }

  lemma {:induction false} InsertBehindKeyOrder(g: Game, e: ScoreEntry, s: seq<ScoreEntry>, rest: seq<ScoreEntry>, k: int)
    requires |s| > 0
    requires WithKey(g, rest, k) == WithKey(g, s[1..], k) + WithKey(g, [e], k)
    ensures WithKey(g, [s[0]] + rest, k) == WithKey(g, s, k) + WithKey(g, [e], k)
  {
    var s0, t, x := WithKey(g, [s[0]], k), WithKey(g, s[1..], k), WithKey(g, [e], k);
    WithKeyAppend(g, [s[0]], rest, k);
    WithKeyCons(g, s, k);
    assert s0 + (t + x) == (s0 + t) + x;
  }

  lemma {:induction false} InsertKeepsKeyOrder(g: Game, e: ScoreEntry, s: seq<ScoreEntry>, k: int)
    requires Sorted(g, s)
    ensures WithKey(g, Insert(g, e, s), k) == WithKey(g, s, k) + WithKey(g, [e], k)
    decreases |s|
  {
    if |s| == 0 {
      assert WithKey(g, [], k) == [];
    } else if Key(g, e) < Key(g, s[0]) {
      InsertInFrontKeyOrder(g, e, s, k);
    } else {
      InsertKeepsKeyOrder(g, e, s[1..], k);
      InsertBehindKeyOrder(g, e, s, Insert(g, e, s[1..]), k);
    }
  }

  lemma InsertSorted(g: Game, e: ScoreEntry, s: seq<ScoreEntry>)
    requires Sorted(g, s)
    ensures Sorted(g, Insert(g, e, s))
    ensures forall k :: WithKey(g, Insert(g, e, s), k) == WithKey(g, s, k) + WithKey(g, [e], k)
  {
    InsertKeepsOrder(g, e, s);
    forall k ensures WithKey(g, Insert(g, e, s), k) == WithKey(g, s, k) + WithKey(g, [e], k) {
      InsertKeepsKeyOrder(g, e, s, k);
    }
  }

  /** One step of the insertion sort keeps each key's entries in order. */
  lemma LastInsertKeyOrder(g: Game, s: seq<ScoreEntry>, k: int)
    requires |s| > 0
    requires var init := s[..|s| - 1];
             Sorted(g, StableSort(g, init)) && WithKey(g, StableSort(g, init), k) == WithKey(g, init, k)
    ensures WithKey(g, StableSort(g, s), k) == WithKey(g, s, k)
  {
    var init, last := s[..|s| - 1], s[|s| - 1];
    InsertKeepsKeyOrder(g, last, StableSort(g, init), k);
    SplitLast(s);
    WithKeyAppend(g, init, [last], k);
  }

  /** The insertion sort is a stable sort. */
  lemma {:induction false} StableSortIsStable(g: Game, s: seq<ScoreEntry>)
    ensures IsStableSortOf(g, StableSort(g, s), s)
    decreases |s|
  {
    if |s| > 0 {
      var init := s[..|s| - 1];
      StableSortIsStable(g, init);
      InsertKeepsOrder(g, s[|s| - 1], StableSort(g, init));
      forall k ensures WithKey(g, StableSort(g, s), k) == WithKey(g, s, k) {
        LastInsertKeyOrder(g, s, k);
      }
    }
  }

  lemma NonEmptyHasOwnKey(g: Game, s: seq<ScoreEntry>)
    ensures |s| > 0 ==> WithKey(g, s, Key(g, s[0])) != []
  {
  }

  /** Dropping the same first entry from two sequences that agree on a
      key leaves tails that still agree on it. */
  lemma WithKeyTails(g: Game, a: seq<ScoreEntry>, b: seq<ScoreEntry>, k: int)
    requires |a| > 0 && |b| > 0 && a[0] == b[0]
    requires WithKey(g, a, k) == WithKey(g, b, k)
    ensures WithKey(g, a[1..], k) == WithKey(g, b[1..], k)
  {
    var head := if Key(g, a[0]) == k then [a[0]] else [];
    assert (head + WithKey(g, a[1..], k))[|head|..] == WithKey(g, a[1..], k);
    assert (head + WithKey(g, b[1..], k))[|head|..] == WithKey(g, b[1..], k);
  }

  /** Two ordered sequences that agree on every key start with the same entry. */
  lemma SortedHeadsAgree(g: Game, a: seq<ScoreEntry>, b: seq<ScoreEntry>)
    requires Sorted(g, a) && Sorted(g, b) && |a| > 0 && |b| > 0
    requires forall k :: WithKey(g, a, k) == WithKey(g, b, k)
    ensures a[0] == b[0]
  {
    var m := Key(g, a[0]);
    WithKeyMembers(g, a, m);
    WithKeyMembers(g, b, m);
    WithKeyMembers(g, a, Key(g, b[0]));
    WithKeyMembers(g, b, Key(g, b[0]));
    assert a[0] in WithKey(g, b, m);
    assert b[0] in WithKey(g, a, Key(g, b[0]));
    assert Key(g, b[0]) == m;
    assert WithKey(g, a, m) == [a[0]] + WithKey(g, a[1..], m);
    assert WithKey(g, b, m) == [b[0]] + WithKey(g, b[1..], m);
    assert a[0] == WithKey(g, a, m)[0] == WithKey(g, b, m)[0] == b[0];
  }

  /** A stable sort is unique: two sequences that are both ordered by key
      and agree on the order within every key are equal. */
  lemma {:induction false} StableSortUnique(g: Game, a: seq<ScoreEntry>, b: seq<ScoreEntry>)
    requires Sorted(g, a) && Sorted(g, b)
    requires forall k :: WithKey(g, a, k) == WithKey(g, b, k)
    ensures a == b
    decreases |a|
  {
    NonEmptyHasOwnKey(g, a);
    NonEmptyHasOwnKey(g, b);
    if |a| > 0 {
      SortedHeadsAgree(g, a, b);
      forall k ensures WithKey(g, a[1..], k) == WithKey(g, b[1..], k) {
        WithKeyTails(g, a, b, k);
      }
      StableSortUnique(g, a[1..], b[1..]);
      assert a == [a[0]] + a[1..] && b == [b[0]] + b[1..];
    }
  }

  /** Every stable sort of s is the insertion sort of s. */
  lemma StableSortIsTheStableSort(g: Game, t: seq<ScoreEntry>, s: seq<ScoreEntry>)
    requires IsStableSortOf(g, t, s)
    ensures t == StableSort(g, s)
  {
    StableSortIsStable(g, s);
    StableSortUnique(g, t, StableSort(g, s));
  }

  /** Re-sorting a board that is already in order changes nothing. */
  lemma SortedIsFixedPoint(g: Game, s: seq<ScoreEntry>)
    requires Sorted(g, s)
    ensures StableSort(g, s) == s
  {
    StableSortIsTheStableSort(g, s, s);
  }

  lemma PrefixSorted(g: Game, s: seq<ScoreEntry>, n: nat)
    requires Sorted(g, s) && n <= |s|
    ensures Sorted(g, s[..n])
  {
  }

  // ---------------------------------------------------------------------
  // The store's operations on boards

  /** The first 50 entries (`slice(0, 50)`). */
  function Top(s: seq<ScoreEntry>): (r: seq<ScoreEntry>)
    ensures |r| == Min(MaxEntries, |s|)
    ensures r == s[..|r|]
  {
    if |s| <= MaxEntries then s else s[..MaxEntries]
  }

  /** `DB.addScore`: push, sort with the game's comparator, keep 50. */
  function AddScore(sc: Scores, g: Game, e: ScoreEntry): (r: Scores)
    ensures Sorted(g, r.Board(g))
    ensures |r.Board(g)| == Min(MaxEntries, |sc.Board(g)| + 1)
    ensures multiset(r.Board(g)) <= multiset(sc.Board(g)) + multiset{e}
    ensures forall h :: h != g ==> r.Board(h) == sc.Board(h)
  {
    var all := StableSort(g, sc.Board(g) + [e]);
    StableSortIsStable(g, sc.Board(g) + [e]);
    PrefixSorted(g, all, |Top(all)|);
    assert all == Top(all) + all[|Top(all)|..];
    sc.WithBoard(g, Top(all))
  }

  /** The board after `addScore` is the first 50 rows of any stable sort
      of the old board with the new entry pushed at its end. */
  lemma AddScoreIsTopOfStableSort(sc: Scores, g: Game, e: ScoreEntry, t: seq<ScoreEntry>)
    requires IsStableSortOf(g, t, sc.Board(g) + [e])
    ensures AddScore(sc, g, e).Board(g) == t[..Min(MaxEntries, |t|)]
  {
    StableSortIsTheStableSort(g, t, sc.Board(g) + [e]);
  }

  /** On an ordered board, `addScore` inserts the entry after every entry
      that ranks at least as well, then cuts to 50. */
  lemma AddScoreInsertsIntoSortedBoard(sc: Scores, g: Game, e: ScoreEntry)
    requires Sorted(g, sc.Board(g))
    ensures AddScore(sc, g, e).Board(g) == Top(Insert(g, e, sc.Board(g)))
  {
    var s := sc.Board(g);
    assert (s + [e])[..|s|] == s;
    SortedIsFixedPoint(g, s);
  }

  /** Entries dropped by the cut rank no better than any entry kept. */
  lemma AddScoreDropsOnlyTheWorst(sc: Scores, g: Game, e: ScoreEntry, x: ScoreEntry, y: ScoreEntry)
    requires x in multiset(sc.Board(g)) + multiset{e} - multiset(AddScore(sc, g, e).Board(g))
    requires y in AddScore(sc, g, e).Board(g)
    ensures Key(g, y) <= Key(g, x)
  {
    var all := StableSort(g, sc.Board(g) + [e]);
    var kept := AddScore(sc, g, e).Board(g);
    assert Sorted(g, all) by {
      StableSortIsStable(g, sc.Board(g) + [e]);
    }
    assert kept == all[..|kept|];
    assert multiset(all) == multiset(sc.Board(g)) + multiset{e};
    BeyondPrefix(all, |kept|, x);
    var j :| |kept| <= j < |all| && all[j] == x;
    var i :| 0 <= i < |kept| && kept[i] == y;
    assert all[i] == y;
  }

  /** All boards ordered and within the cap. */
  predicate WellFormed(sc: Scores)
  {
    forall g :: Sorted(g, sc.Board(g)) && |sc.Board(g)| <= MaxEntries
  }

  lemma AddScorePreservesWellFormed(sc: Scores, g: Game, e: ScoreEntry)
    requires WellFormed(sc)
    ensures WellFormed(AddScore(sc, g, e))
  {
  }

  /** `DB.getRanking`: the stored board, already in ranking order. */
  function GetRanking(sc: Scores, g: Game): (r: seq<ScoreEntry>)
    ensures WellFormed(sc) ==> Sorted(g, r) && |r| <= MaxEntries
  {
    sc.Board(g)
  }

  /** `DB.getUserRank`: the 1-based position of the user's first row. */
  function GetUserRank(sc: Scores, g: Game, userId: string): (r: Option<nat>)
    ensures r.Some? ==> 1 <= r.value <= |GetRanking(sc, g)|
    ensures r.Some? ==> GetRanking(sc, g)[r.value - 1].userId == userId
    ensures r.Some? ==> forall i :: 0 <= i < r.value - 1 ==> GetRanking(sc, g)[i].userId != userId
    ensures r.None? <==> forall i :: 0 <= i < |GetRanking(sc, g)| ==> GetRanking(sc, g)[i].userId != userId
  {
    match FirstIndex(GetRanking(sc, g), (x: ScoreEntry) => x.userId == userId)
    case None => None
    case Some(i) => Some(i + 1)
  }
}

=== FILE: security.dfy ===
/** `SecurityUtils` (script.js): the reversible password obfuscation, the
    four-point password strength check and the e-mail format check. */
module Security {
  import opened Common
  import Base64

  /** The fixed, non-secret salt appended before encoding. */
  const Salt: string := "logicagames_salt_2024"

  /** `btoa` accepts only strings whose every UTF-16 unit is below 256; a
      character of `string` is below 256 exactly when its single unit is. */
  predicate Latin1(s: string)
  {
    forall i :: 0 <= i < |s| ==> s[i] as int < 256
  }

  /** The octets `btoa` encodes: one per character. */
  function Latin1Bytes(s: string): (r: seq<Base64.Byte>)
    requires Latin1(s)
    ensures |r| == |s|
    ensures forall i :: 0 <= i < |s| ==> r[i] == s[i] as int
  {
    seq(|s|, i requires 0 <= i < |s| => s[i] as int)
  }

  lemma SaltedLatin1(password: string)
    ensures Latin1(password + Salt) <==> Latin1(password)
  {
    var t := password + Salt;
    assert forall j :: 0 <= j < |Salt| ==> Salt[j] as int < 128;
    assert forall i :: 0 <= i < |password| ==> t[i] == password[i];
    assert forall i :: |password| <= i < |t| ==> t[i] == Salt[i - |password|];
  }

  /** `encodePassword`: base64 of password + salt. `btoa` throws on a
      character above 255; that outcome is None. */
  function EncodePassword(password: string): (r: Option<string>)
    ensures r.Some? <==> Latin1(password)
    ensures r.Some? ==> Base64.Decode(r.value) == Some(Latin1Bytes(password + Salt))
  {
    var text := password + Salt;
    SaltedLatin1(password);
    if Latin1(text) then
      Base64.DecodeEncode(Latin1Bytes(text));
      Some(Base64.Encode(Latin1Bytes(text)))
    else None
  }

  /** Two passwords with the same stored form are the same password, so
      comparing encodings at login compares plain texts. */
  lemma EncodePasswordInjective(a: string, b: string)
    requires EncodePassword(a).Some? && EncodePassword(a) == EncodePassword(b)
    ensures a == b
  {
    var ta, tb := a + Salt, b + Salt;
    var ba, bb := Latin1Bytes(ta), Latin1Bytes(tb);
    assert ba == bb;
    assert |ta| == |tb|;
    forall i | 0 <= i < |ta|
      ensures ta[i] == tb[i]
    {
      assert ba[i] == bb[i];
    }
    assert ta == tb;
    assert a == ta[..|a|] && b == tb[..|b|];
  }

  // ---------------------------------------------------------------------
  // Password strength

  const MinLength: nat := 6
  const StrongMessage: string := "Senha forte"
  const WeakMessage: string :=
    "Use pelo menos 6 caracteres com letras maiúsculas, minúsculas e números"

  datatype Strength = Strength(score: nat, strong: bool, message: string)

  /** `/[A-Z]/`, `/[a-z]/` and `/\d/` (ASCII digits only). */
  predicate HasUpper(s: string) { exists i :: 0 <= i < |s| && 'A' <= s[i] <= 'Z' }
  predicate HasLower(s: string) { exists i :: 0 <= i < |s| && 'a' <= s[i] <= 'z' }
  predicate HasDigit(s: string) { exists i :: 0 <= i < |s| && '0' <= s[i] <= '9' }

  function Point(b: bool): nat { if b then 1 else 0 }

  /** The UTF-16 code units of one character: a character beyond the
      Basic Multilingual Plane is written as a surrogate pair. */
  function Units(c: char): nat
  {
    if c as int >= 0x1_0000 then 2 else 1
  }

  /** JavaScript's `length` of a string: its count of UTF-16 code units,
      between one and two per character. */
  function Utf16Length(s: string): (n: nat)
    ensures |s| <= n <= 2 * |s|
    decreases |s|
  {
    if |s| == 0 then 0 else Units(s[0]) + Utf16Length(s[1..])
  }

  /** The code-unit length of a concatenation is the sum of the lengths. */
  lemma {:induction false} Utf16LengthAppend(a: string, b: string)
    ensures Utf16Length(a + b) == Utf16Length(a) + Utf16Length(b)
    decreases |a|
  {
    if |a| == 0 {
      assert a + b == b;
    } else {
      assert (a + b)[0] == a[0] && (a + b)[1..] == a[1..] + b;
      Utf16LengthAppend(a[1..], b);
    }
  }

  /** `checkPasswordStrength`: one point per criterion met. */
  function CheckPasswordStrength(password: string): (r: Strength)
    ensures r.score <= 4
    ensures r.strong <==> r.score >= 3
    ensures r.message == if r.strong then StrongMessage else WeakMessage
    ensures r.score == 0 <==>
              Utf16Length(password) < MinLength && !HasUpper(password) && !HasLower(password) && !HasDigit(password)
    ensures r.score == 4 <==>
              Utf16Length(password) >= MinLength && HasUpper(password) && HasLower(password) && HasDigit(password)
  {
    var strength := Point(Utf16Length(password) >= MinLength) + Point(HasUpper(password))
                    + Point(HasLower(password)) + Point(HasDigit(password));
    Strength(strength, strength >= 3, if strength >= 3 then StrongMessage else WeakMessage)
  }

  /** Strong means: at most one of the four criteria fails. */
  lemma StrongIffThreeCriteria(password: string)
    ensures var len, up, low, dig := Utf16Length(password) >= MinLength, HasUpper(password), HasLower(password), HasDigit(password);
            CheckPasswordStrength(password).strong <==>
              ((len && up && low) || (len && up && dig) || (len && low && dig) || (up && low && dig))
  {
  }

  /** A password can be strong without reaching the minimum length. */
  lemma StrongWithoutMinLength()
    ensures CheckPasswordStrength("Ab1").strong && Utf16Length("Ab1") < MinLength
  {
    var p := "Ab1";
    assert 'A' <= p[0] <= 'Z' && 'a' <= p[1] <= 'z' && '0' <= p[2] <= '9';
  }

  /** The length criterion counts code units: two letters and two emoji
      are six units long, so this four-character password is strong. */
  lemma SurrogatePairsCountTwice()
    ensures |"Ab\U{1F600}\U{1F600}"| == 4 && Utf16Length("Ab\U{1F600}\U{1F600}") == MinLength
    ensures CheckPasswordStrength("Ab\U{1F600}\U{1F600}").score == 3
    ensures CheckPasswordStrength("Ab\U{1F600}\U{1F600}").strong
  {
    var p := "Ab\U{1F600}\U{1F600}";
    assert p[1..][1..][1..][1..] == [];
    assert 'A' <= p[0] <= 'Z' && 'a' <= p[1] <= 'z';
    assert !HasDigit(p) by {
      assert forall i :: 0 <= i < |p| ==> !('0' <= p[i] <= '9');
    }
  }

  /** Appending characters never lowers the score. */
  lemma StrengthGrowsWithExtension(password: string, more: string)
    ensures CheckPasswordStrength(password + more).score >= CheckPasswordStrength(password).score
  {
    var p := password + more;
    Utf16LengthAppend(password, more);
    assert forall i :: 0 <= i < |password| ==> p[i] == password[i];
    assert HasUpper(password) ==> HasUpper(p) by {
      if HasUpper(password) {
        var i :| 0 <= i < |password| && 'A' <= password[i] <= 'Z';
        assert 'A' <= p[i] <= 'Z';
      }
    }
    assert HasLower(password) ==> HasLower(p) by {
      if HasLower(password) {
        var i :| 0 <= i < |password| && 'a' <= password[i] <= 'z';
        assert 'a' <= p[i] <= 'z';
      }
    }
    assert HasDigit(password) ==> HasDigit(p) by {
      if HasDigit(password) {
        var i :| 0 <= i < |password| && '0' <= password[i] <= '9';
        assert '0' <= p[i] <= '9';
      }
    }
  }

  // ---------------------------------------------------------------------
  // E-mail format

  /** JavaScript's `\s`: the ECMAScript WhiteSpace and LineTerminator code points. */
  predicate IsJsSpace(c: char)
  {
    var v := c as int;
    (9 <= v <= 13) || v == 32 || v == 0xA0 || v == 0x1680 || (0x2000 <= v <= 0x200A)
    || v == 0x2028 || v == 0x2029 || v == 0x202F || v == 0x205F || v == 0x3000 || v == 0xFEFF
  }

  /** The class `[^\s@]`. */
  predicate Plain(c: char) { !IsJsSpace(c) && c != '@' }

  predicate AllPlain(s: string) { forall i :: 0 <= i < |s| ==> Plain(s[i]) }

  /** `validateEmail`: the whole string matches `^[^\s@]+@[^\s@]+\.[^\s@]+$`,
      i.e. it splits as local '@' middle '.' last with three non-empty runs of
      `[^\s@]` (the middle run may itself contain dots). */
  predicate ValidateEmail(s: string)
  {
    exists at, dot ::
      && 0 < at && at + 1 < dot && dot + 1 < |s|
      && s[at] == '@' && s[dot] == '.'
      && AllPlain(s[..at]) && AllPlain(s[at + 1..dot]) && AllPlain(s[dot + 1..])
  }

  /** The domain rule: a '.' with text on both sides. */
  predicate DottedDomain(d: string)
  {
    exists k :: 0 < k < |d| - 1 && d[k] == '.'
  }

  predicate NoSpace(s: string) { forall i :: 0 <= i < |s| ==> !IsJsSpace(s[i]) }

  lemma PlainSlice(s: string, lo: nat, hi: nat)
    requires lo <= hi <= |s|
    ensures AllPlain(s[lo..hi]) <==> forall i :: lo <= i < hi ==> Plain(s[i])
  {
    assert forall i :: lo <= i < hi ==> s[lo..hi][i - lo] == s[i];
  }

  /** The characterization's conditions, in one place. */
  predicate SingleAtDottedDomain(s: string)
  {
    && NoSpace(s)
    && multiset(s)['@'] == 1
    && exists at :: 0 < at < |s| && s[at] == '@' && DottedDomain(s[at + 1..])
  }

  /** The three runs around '@' and '.' are plain exactly when every
      character other than the '@' is. */
  lemma PlainRuns(s: string, at: nat, dot: nat)
    requires at < dot < |s| && s[dot] == '.'
    ensures AllPlain(s[..at]) && AllPlain(s[at + 1..dot]) && AllPlain(s[dot + 1..])
            <==> forall i :: 0 <= i < |s| && i != at ==> Plain(s[i])
  {
    PlainSlice(s, 0, at);
    PlainSlice(s, at + 1, dot);
    PlainSlice(s, dot + 1, |s|);
    assert s[..at] == s[0..at];
  }

  lemma PatternHasSingleAt(s: string)
    requires ValidateEmail(s)
    ensures SingleAtDottedDomain(s)
  {
    var at, dot :| && 0 < at && at + 1 < dot && dot + 1 < |s|
                   && s[at] == '@' && s[dot] == '.'
                   && AllPlain(s[..at]) && AllPlain(s[at + 1..dot]) && AllPlain(s[dot + 1..]);
    PlainRuns(s, at, dot);
    OnlyPositionIff(s, '@', at);
    var d := s[at + 1..];
    assert d[dot - at - 1] == '.';
    assert 0 < at < |s| && s[at] == '@' && DottedDomain(s[at + 1..]);
  }

  lemma SingleAtMatchesPattern(s: string)
    requires SingleAtDottedDomain(s)
    ensures ValidateEmail(s)
  {
    var at :| 0 < at < |s| && s[at] == '@' && DottedDomain(s[at + 1..]);
    var d := s[at + 1..];
    var k :| 0 < k < |d| - 1 && d[k] == '.';
    var dot := at + 1 + k;
    assert s[dot] == '.';
    OnlyPositionIff(s, '@', at);
    PlainRuns(s, at, dot);
    assert && 0 < at && at + 1 < dot && dot + 1 < |s|
           && s[at] == '@' && s[dot] == '.'
           && AllPlain(s[..at]) && AllPlain(s[at + 1..dot]) && AllPlain(s[dot + 1..]);
  }

  /** The pattern accepts exactly the strings with no white space, a single
      '@' that is not the first character, and a dotted domain after it. */
  lemma ValidateEmailCharacterization(s: string)
    ensures ValidateEmail(s) <==> SingleAtDottedDomain(s)
  {
    if ValidateEmail(s) { PatternHasSingleAt(s); }
    if SingleAtDottedDomain(s) { SingleAtMatchesPattern(s); }
  }
}

=== FILE: seeding.dfy ===
/** `addExampleScoresToRanking` (test-user-module.js): a board with fewer
    than three entries receives the example scores it does not already
    list, and then every board is re-sorted with its game's comparator. */
module Seeding {
  import opened Common
  import opened Ranking

  const ExampleId: string := "exemplo@email.com"
  const ExampleName: string := "Jogador Exemplo"
  const OtherId: string := "outro@jogador.com"
  const OtherName: string := "Outro Jogador"
  const TesterId: string := "teste@email.com"
  const TesterName: string := "Jogador Teste"

  /** A board below this size receives the examples. */
  const SeedThreshold: nat := 3

  /** The example rows of each game. `dates[k]` is the timestamp k days
      before the page loaded; the clock is not part of the model. */
  function Examples(g: Game, dates: seq<string>): (r: seq<ScoreEntry>)
    requires |dates| == 5
    ensures |r| == (if g == Math then 5 else 4)
    ensures r[0].score != r[1].score && r[1].score != r[2].score && r[0].score != r[2].score
    ensures r[3].score != r[0].score && r[3].score != r[1].score && r[3].score != r[2].score
  {
    match g
    case Math =>
      [ ScoreEntry(ExampleId, ExampleName, 150, dates[0]),
        ScoreEntry(ExampleId, ExampleName, 120, dates[1]),
        ScoreEntry(ExampleId, ExampleName, 90, dates[2]),
        ScoreEntry(OtherId, OtherName, 200, dates[3]),
        ScoreEntry(TesterId, TesterName, 180, dates[4]) ]
    case Color =>
      [ ScoreEntry(ExampleId, ExampleName, 45, dates[0]),
        ScoreEntry(ExampleId, ExampleName, 60, dates[1]),
        ScoreEntry(OtherId, OtherName, 35, dates[2]),
        ScoreEntry(TesterId, TesterName, 50, dates[3]) ]
    case Puzzle =>
      [ ScoreEntry(ExampleId, ExampleName, 25, dates[0]),
        ScoreEntry(ExampleId, ExampleName, 30, dates[1]),
        ScoreEntry(OtherId, OtherName, 20, dates[2]),
        ScoreEntry(TesterId, TesterName, 28, dates[3]) ]
  }

  /** The duplicate test: same player and same score (the date is ignored). */
  predicate SamePair(a: ScoreEntry, b: ScoreEntry)
  {
    a.userId == b.userId && a.score == b.score
  }

  predicate Listed(s: seq<ScoreEntry>, e: ScoreEntry)
  {
    exists i :: 0 <= i < |s| && SamePair(s[i], e)
  }

  /** The `forEach`/`some`/`push` loop: each example, in order, is appended
      unless the board (including examples appended before it) already
      lists its pair. */
  function AddMissing(s: seq<ScoreEntry>, exs: seq<ScoreEntry>): (r: seq<ScoreEntry>)
    ensures |s| <= |r| <= |s| + |exs|
    ensures r[..|s|] == s
    decreases |exs|
  {
    if |exs| == 0 then s
    else
      var next := if Listed(s, exs[0]) then s else s + [exs[0]];
      var r := AddMissing(next, exs[1..]);
      assert r[..|s|] == r[..|next|][..|s|];
      r
  }

  /** After the loop every example is listed. */
  lemma {:induction false} AddMissingListsAll(s: seq<ScoreEntry>, exs: seq<ScoreEntry>)
    ensures forall e :: e in exs ==> Listed(AddMissing(s, exs), e)
    decreases |exs|
  {
    if |exs| > 0 {
      var next := if Listed(s, exs[0]) then s else s + [exs[0]];
      var r := AddMissing(next, exs[1..]);
      AddMissingListsAll(next, exs[1..]);
      assert exs == [exs[0]] + exs[1..];
      assert Listed(next, exs[0]) by {
        if !Listed(s, exs[0]) { assert SamePair(next[|s|], exs[0]); }
      }
      assert Listed(r, exs[0]) by {
        var i :| 0 <= i < |next| && SamePair(next[i], exs[0]);
        assert r[..|next|] == next;
        assert r[i] == next[i];
      }
    }
  }

  /** A row the loop appends is an example whose pair was not listed
      before it. */
  lemma {:induction false} AddMissingAppendsOnlyNew(s: seq<ScoreEntry>, exs: seq<ScoreEntry>)
    ensures var r := AddMissing(s, exs);
            forall i :: |s| <= i < |r| ==> r[i] in exs && !Listed(r[..i], r[i])
    decreases |exs|
  {
    if |exs| > 0 {
      var next := if Listed(s, exs[0]) then s else s + [exs[0]];
      var r := AddMissing(next, exs[1..]);
      AddMissingAppendsOnlyNew(next, exs[1..]);
      assert r == AddMissing(s, exs);
      forall i | |s| <= i < |r|
        ensures r[i] in exs && !Listed(r[..i], r[i])
      {
        if i < |next| {
          assert r[..|next|] == next;
          assert r[i] == exs[0];
          assert r[..i] == s;
        } else {
          assert |next| <= i < |AddMissing(next, exs[1..])|;
          assert AddMissing(next, exs[1..])[i] in exs[1..];
          assert r[i] in exs[1..];
        }
      }
    }
  }

  /** What the loop promises: the old board is kept as it was, every
      example ends up listed, and an appended row is an example whose pair
      was not listed before it. */
  lemma AddMissingMeaning(s: seq<ScoreEntry>, exs: seq<ScoreEntry>)
    ensures var r := AddMissing(s, exs);
            && (forall e :: e in exs ==> Listed(r, e))
            && (forall i :: |s| <= i < |r| ==> r[i] in exs && !Listed(r[..i], r[i]))
  {
    AddMissingListsAll(s, exs);
    AddMissingAppendsOnlyNew(s, exs);
  }

  /** A board that already lists every example gets nothing appended. */
  lemma {:induction false} AddMissingWhenListed(s: seq<ScoreEntry>, exs: seq<ScoreEntry>)
    requires forall e :: e in exs ==> Listed(s, e)
    ensures AddMissing(s, exs) == s
    decreases |exs|
  {
    if |exs| > 0 {
      assert exs[0] in exs;
      assert forall e :: e in exs[1..] ==> e in exs;
      AddMissingWhenListed(s, exs[1..]);
    }
  }

  /** The board the seeding step sorts: the old one, with the missing
      examples appended when it is short. */
  function Grown(b: seq<ScoreEntry>, exs: seq<ScoreEntry>): (r: seq<ScoreEntry>)
    ensures |b| <= |r| && r[..|b|] == b
    ensures |b| >= SeedThreshold ==> r == b
  {
    if |b| < SeedThreshold then AddMissing(b, exs) else b
  }

  /** One board of the seeding step: ranked by the game's comparator, with
      every old row kept and each new row one of the examples. */
  function MergeBoard(g: Game, b: seq<ScoreEntry>, exs: seq<ScoreEntry>): (r: seq<ScoreEntry>)
    ensures |b| >= SeedThreshold ==> r == StableSort(g, b)
    ensures |b| < SeedThreshold ==> r == StableSort(g, AddMissing(b, exs))
    ensures IsStableSortOf(g, r, Grown(b, exs))
    ensures multiset(b) <= multiset(r) && |b| <= |r| <= |b| + |exs|
    ensures forall e :: e in r ==> e in b || e in exs
  {
    StableSortIsStable(g, Grown(b, exs));
    GrownRows(b, exs);
    assert forall e :: e in StableSort(g, Grown(b, exs)) ==> e in multiset(Grown(b, exs));
    StableSort(g, Grown(b, exs))
  }

  /** Growing keeps the old rows and adds only examples. */
  lemma GrownRows(b: seq<ScoreEntry>, exs: seq<ScoreEntry>)
    ensures multiset(b) <= multiset(Grown(b, exs))
    ensures forall e :: e in Grown(b, exs) ==> e in b || e in exs
  {
    var grown := Grown(b, exs);
    assert grown == b + grown[|b|..];
    if |b| < SeedThreshold {
      assert grown == AddMissing(b, exs);
      AddMissingMeaning(b, exs);
      assert forall i :: |b| <= i < |grown| ==> grown[i] in exs;
      forall e | e in grown
        ensures e in b || e in exs
      {
        var i :| 0 <= i < |grown| && grown[i] == e;
        if i < |b| {
          assert grown[..|b|][i] == e;
        }
      }
    }
  }

  /** The seeding step over all three boards. */
  function SeedRanking(sc: Scores, dates: seq<string>): (r: Scores)
    requires |dates| == 5
    ensures forall g :: r.Board(g) == MergeBoard(g, sc.Board(g), Examples(g, dates))
    ensures forall g :: Sorted(g, r.Board(g)) && multiset(sc.Board(g)) <= multiset(r.Board(g))
  {
    Scores(MergeBoard(Math, sc.math, Examples(Math, dates)),
           MergeBoard(Color, sc.color, Examples(Color, dates)),
           MergeBoard(Puzzle, sc.puzzle, Examples(Puzzle, dates)))
  }

  /** Every seeded board is a stable sort of the old board followed by
      the appended examples: ranked, and nothing lost or invented. */
  lemma SeedRankingIsStableSort(sc: Scores, dates: seq<string>, g: Game)
    requires |dates| == 5
    ensures var b, exs := sc.Board(g), Examples(g, dates);
            var grown := Grown(b, exs);
            && IsStableSortOf(g, SeedRanking(sc, dates).Board(g), grown)
            && (forall i :: |b| <= i < |grown| ==> grown[i] in exs && !Listed(grown[..i], grown[i]))
            && (|b| < SeedThreshold ==> forall e :: e in exs ==> Listed(grown, e))
  {
    var b, exs := sc.Board(g), Examples(g, dates);
    var grown := Grown(b, exs);
    assert SeedRanking(sc, dates).Board(g) == StableSort(g, grown);
    assert IsStableSortOf(g, SeedRanking(sc, dates).Board(g), grown) by {
      StableSortIsStable(g, grown);
    }
    if |b| < SeedThreshold {
      assert grown == AddMissing(b, exs);
      AddMissingMeaning(b, exs);
    } else {
      assert grown == b;
    }
  }

  /** A board already in order with at least three rows is left alone. */
  lemma SeedKeepsFullSortedBoard(sc: Scores, dates: seq<string>, g: Game)
    requires |dates| == 5
    requires |sc.Board(g)| >= SeedThreshold && Sorted(g, sc.Board(g))
    ensures SeedRanking(sc, dates).Board(g) == sc.Board(g)
  {
    SortedIsFixedPoint(g, sc.Board(g));
  }

  /** Three rows with pairwise different scores need three positions. */
  lemma ThreeScoresNeedThreeRows(s: seq<ScoreEntry>, a: ScoreEntry, b: ScoreEntry, c: ScoreEntry)
    requires Listed(s, a) && Listed(s, b) && Listed(s, c)
    requires a.score != b.score && b.score != c.score && a.score != c.score
    ensures |s| >= 3
  {
    var i :| 0 <= i < |s| && SamePair(s[i], a);
    var j :| 0 <= j < |s| && SamePair(s[j], b);
    var k :| 0 <= k < |s| && SamePair(s[k], c);
    assert i != j && j != k && i != k;
  }

  /** Four rows with pairwise different scores need four positions. */
  lemma FourScoresNeedFourRows(s: seq<ScoreEntry>, a: ScoreEntry, b: ScoreEntry, c: ScoreEntry, d: ScoreEntry)
    requires Listed(s, a) && Listed(s, b) && Listed(s, c) && Listed(s, d)
    requires a.score != b.score && b.score != c.score && a.score != c.score
    requires d.score != a.score && d.score != b.score && d.score != c.score
    ensures |s| >= 4
  {
    ThreeScoresNeedThreeRows(s, a, b, c);
    var i :| 0 <= i < |s| && SamePair(s[i], a);
    var j :| 0 <= j < |s| && SamePair(s[j], b);
    var k :| 0 <= k < |s| && SamePair(s[k], c);
    var l :| 0 <= l < |s| && SamePair(s[l], d);
    assert {i, j, k, l} <= Range(|s|);
    SubsetCard({i, j, k, l}, Range(|s|));
  }

  /** After seeding, every board has at least three rows; a board that was
      short receives at least four examples of pairwise different scores. */
  lemma SeededBoardsAreFull(sc: Scores, dates: seq<string>, g: Game)
    requires |dates| == 5
    ensures |SeedRanking(sc, dates).Board(g)| >= SeedThreshold
    ensures |sc.Board(g)| < SeedThreshold ==> |SeedRanking(sc, dates).Board(g)| >= 4
  {
    var b, exs := sc.Board(g), Examples(g, dates);
    if |b| < SeedThreshold {
      var grown := AddMissing(b, exs);
      AddMissingMeaning(b, exs);
      assert exs[0] in exs && exs[1] in exs && exs[2] in exs && exs[3] in exs;
      FourScoresNeedFourRows(grown, exs[0], exs[1], exs[2], exs[3]);
    }
  }

  /** Loading the page twice seeds once: the second run changes nothing. */
  lemma SeedRankingIdempotent(sc: Scores, dates: seq<string>, dates2: seq<string>)
    requires |dates| == 5 && |dates2| == 5
    ensures var once := SeedRanking(sc, dates);
            SeedRanking(once, dates2) == once
  {
    var once := SeedRanking(sc, dates);
    forall g: Game
      ensures SeedRanking(once, dates2).Board(g) == once.Board(g)
    {
      SeededBoardsAreFull(sc, dates, g);
      SeedRankingIsStableSort(sc, dates, g);
      SeedKeepsFullSortedBoard(once, dates2, g);
    }
    assert SeedRanking(once, dates2).Board(Math) == once.Board(Math);
    assert SeedRanking(once, dates2).Board(Color) == once.Board(Color);
    assert SeedRanking(once, dates2).Board(Puzzle) == once.Board(Puzzle);
  }

  /** A merged board is ordered, and stays within 50 rows: a full board
      keeps its length and a short one gains at most five rows. */
  lemma MergeBoardWithinCap(g: Game, b: seq<ScoreEntry>, exs: seq<ScoreEntry>)
    requires |b| <= MaxEntries && |exs| <= 5
    ensures Sorted(g, MergeBoard(g, b, exs)) && |MergeBoard(g, b, exs)| <= MaxEntries
  {
    var r := MergeBoard(g, b, exs);
    if |b| >= SeedThreshold {
      assert |r| == |b|;
    }
  }

  /** Seeding a well-formed store keeps it well-formed. */
  lemma SeedRankingPreservesWellFormed(sc: Scores, dates: seq<string>)
    requires |dates| == 5
    requires WellFormed(sc)
    ensures WellFormed(SeedRanking(sc, dates))
  {
    forall g: Game
      ensures Sorted(g, SeedRanking(sc, dates).Board(g))
      ensures |SeedRanking(sc, dates).Board(g)| <= MaxEntries
    {
      MergeBoardWithinCap(g, sc.Board(g), Examples(g, dates));
    }
  }
}

=== FILE: shuffle.dfy ===
/** `shuffleArray`, the Fisher–Yates shuffle shared by the account shell and
    the game engines (script.js defines it once and games-module.js keeps a
    private copy with the same body). The random index of every round is
    passed in instead of being drawn from `Math.random`. */
module Shuffle {
  import opened Common

  /** The draws for shuffling n elements: round k runs with loop variable
      i = n - 1 - k and swaps position i with position draws[k], which
      `Math.floor(Math.random() * (i + 1))` always places in 0 .. i. */
  predicate ValidDraws(n: nat, draws: seq<nat>)
  {
    && |draws| == (if n == 0 then 0 else n - 1)
    && forall k :: 0 <= k < |draws| ==> draws[k] <= n - 1 - k
  }

  /** The loop from index i down to 1; draws[0] is this round's j. */
  function ShuffleFrom<T>(s: seq<T>, i: nat, draws: seq<nat>): (r: seq<T>)
    requires i < |s| && |draws| == i
    requires forall k :: 0 <= k < |draws| ==> draws[k] <= i - k
    ensures |r| == |s|
    ensures multiset(r) == multiset(s)
    decreases i
  {
    if i == 0 then s
    else
      SwapPreservesMultiset(s, i, draws[0]);
      ShuffleFrom(Swap(s, i, draws[0]), i - 1, draws[1..])
  }

  /** A copy of `s` with its elements permuted by the given draws. */
  function ShuffleArray<T>(s: seq<T>, draws: seq<nat>): (r: seq<T>)
    requires ValidDraws(|s|, draws)
    ensures |r| == |s|
    ensures multiset(r) == multiset(s)
  {
    if |s| == 0 then s else ShuffleFrom(s, |s| - 1, draws)
  }
}
